=== FILE: README.md ===
# Steep inference core, modelled in Dafny

This project models four parts of the inference core of Steep, a static type checker for Ruby:

- the **literal type** `Steep::AST::Types::Literal`;
- the **method parameter matcher** `MethodParams.build`, which lines up the parameters of a Ruby `def` with its declared RBS method type;
- the **type environment** `TypeInference::TypeEnv`, the declared types of instance variables, global variables and constants;
- the **typing store** `Steep::Typing`, the node-to-type table kept in a tree of speculative layers.

Every value is an immutable datatype and every operation is a pure function. Where the source updates an object in place (`TypeEnv#set`, `Typing#add_typing`, `save!`), the model returns the updated value and the caller passes it on. Types are compared as Ruby's `==` compares them, ignoring the locations of literals. The subtyping checker is the small relation in `subtyping.dfy`:

- `untyped` is on top;
- a union is below another type when every member is;
- a type is below a union when it is below some member;
- a literal is below its back type and that type's ancestors;
- a nominal instance type is below its ancestors;
- anything else is below only itself.

The class hierarchy of the signature database is an `Ancestry` map passed in as a parameter.

Files:

- `wrappers.dfy`: `Option` and `Result`.
- `types.dfy` (`Types`): the type datatype, the literal operations, substitution and free variables.
- `subtyping.dfy` (`Subtyping`): the relation and its laws.
- `method_params.dfy` (`MethodParameters`): the matcher, its accessors, and its round-trip theorem.
- `type_env.dfy` (`TypeEnvironment`): `get`, `set`, `assign`, `with_annotations` and `build`.
- `typing.dfy` (`TypingStore`): the layer arena with `add_typing`, `type_of`, `new_child` and `save!`.

Apart from `literal.rb`, the implementation files of these components are not part of this model. Their behaviour is rebuilt from their test suites, so the modelling choices are stated below.

Where a Ruby method raises, the model returns `Err` or `None`. Where it takes a block only to report a problem, the model returns the report as data:

- `get` returns a `Lookup` whose `fallback` flag is set when the block would run;
- `assign` returns whether it would yield `nil` (nothing declared) and the failure it would yield; with neither, the block does not run;
- `with_annotations` returns the list of conflicts.

## Matcher rules

The tests fix most of the matcher's behaviour. The rest was decided as follows:

- Positional parameters consume the declared positional list from its head. A `*x` takes everything that is left, except the trailing positionals of the next rule.
- A required parameter against a declared optional or rest gives `MethodParameterMismatch`. An optional parameter against anything other than an optional gives `DifferentMethodParameterKind`.
- A keyword parameter takes its own name's declaration, whether required or optional, or else the declared `**` type.
- A `*x` leaves to the required parameters that follow it as many declared positionals as there are such parameters, taken from the end. So `def foo(*a, b)` against `(*A, B)` gives `a` the type `A` and `b` the type `B`, and reports nothing.
- A `*x` is reported unless what it collects is non-empty and all rest. So `*x` against `()` is reported, in line with `**x` against `()`, which the tests do report.
- Whatever declared positional or keyword is left unconsumed, `**` included, gives exactly one `MethodArityMismatch` at the end of the list, unless the `def` forwards with `...`. So `def foo(foo:)` against `(**String)` gets a parameter mismatch and an arity mismatch. The tests check that case only with `assert_any!`.
- Against the untyped signature `(?)`, every slot is `untyped`, nothing is reported, and `...` forwards the opaque marker.

An arity mismatch does not take priority over per-parameter diagnostics: `def foo(x)` against `()` gets a parameter mismatch (test/method_params_test.rb:34-88).

## Other choices

- **Constant lookups.** `TypeEnv#get` on a constant that was never set returns `untyped`, even when the constant resolver declares the constant. This follows `test_const_without_annotation`. `assign` and `with_annotations` do check a constant against its resolver declaration. The test of `build` (test/type_env_test.rb:376-404) checks only annotated constants, and `Build` seeds only those.
- **Environment keys.** The environment is one map keyed by `IVar`, `GVar` or `Const`, which is equivalent to three maps.
- **Order of annotations.** `with_annotations` checks every override against the original environment. Its override lists come from Ruby hashes, so their keys are distinct. For `build`, a later annotation of the same name wins.
- **Committing a layer.** `save!` follows the rule the tests show (test/typing_test.rb:94-133): a child cannot be saved once its parent has received any write since the child was created, whether the parent's own `add_typing` or a sibling's `save!`, even on a different node. Each layer has a version counter for this. A child records its parent's version when it is created, and `save!` compares the two. Saving a child with no entries still bumps the parent's version, so it makes every sibling stale.
- **Writes to a layer.** A second `add_typing` of the same node in one layer fails. So does any write to a layer already saved: an `add_typing` into it, and a `save!` of one of its children into it.
- **Re-typing a parent's node.** The tests never have a child record a node its parent already typed. The model keeps the parent's own entries unchanged by `save!`: a child that re-types a node of its parent cannot be saved and gets `Conflict`, and the parent keeps its type for that node.

## Model

| member | source | states |
|---|---|---|
| Types.LiteralEqualityLaws | lib/steep/ast/types/literal.rb:13-22 | literal equality (`==`, `eql?`) holds exactly when the values are equal, whatever the locations; it is reflexive, symmetric and transitive; equal literals hash alike, and every literal has the same hash |
| Types.SameTypeIsLiteralEquality | lib/steep/ast/types/literal.rb:13-16 | the location-blind equality used for all types agrees with `Literal#==` on literals: same value, whatever the locations |
| Types.LiteralNeverEqualsOtherShapes | lib/steep/ast/types/literal.rb:13-16 | a literal never equals a type of any other shape |
| Types.LiteralIsInert | lib/steep/ast/types/literal.rb:24-38 | a literal has no free variables, every substitution returns it unchanged, and its level is `[0]` |
| Types.BackType | lib/steep/ast/types/literal.rb:44-55 | Integer, String and Symbol values map to `::Integer`, `::String` and `::Symbol`; any other value has no back type (the source raises) |
| Types.WithLocation | lib/steep/ast/types/literal.rb:40-42 | corrected (see ## Findings): relocating a literal keeps it equal to the original in both directions, with the same hash and back type, and records the new location |
| Types.WithLocationAsWrittenRaises | lib/steep/ast/types/literal.rb:40-42 | the method as written raises for every literal and location, and never returns the relocated literal |
| Types.SubstFreeVars | lib/steep/ast/types/literal.rb:24-34 | after substituting `u` for `id`, the free variables are within the original ones minus `id`, plus those of `u`; this is the law the literal's `subst` and `free_variables` satisfy trivially |
| Types.SubstEliminates | lib/steep/ast/types/literal.rb:24-34 | substituting a type free of `id` for `id` removes `id` from the free variables |
| Types.SubstOutsideDomain | lib/steep/ast/types/literal.rb:24-26 | a substitution that maps none of a type's free variables returns the type unchanged |
| Subtyping.LiteralBelowBackType | lib/steep/ast/types/literal.rb:44-55 | a literal is a subtype of its back type and of every ancestor of that type |
| Subtyping.OtherLiteralHasNoNominalSupertype | lib/steep/ast/types/literal.rb:52-53 | a literal without a back type is below no nominal type |
| Subtyping.LocationsIgnored | lib/steep/ast/types/literal.rb:13-16 | two types that differ only in where their literals were written are subtypes of each other, at any depth |
| Subtyping.NestedLiteralLocations | lib/steep/ast/types/literal.rb:13-16 | `::Array[1]` written at two places is below the other under any ancestry |
| Subtyping.BelowMemberIsBelowUnion | test/type_env_test.rb:189-201 | a type below one member of a union is below the union (String ≤ Integer \| String) |
| Subtyping.Reflexive | test/type_env_test.rb:51-63 | law of the model, not exercised by a test: every type is a subtype of itself |
| Subtyping.UnionBelow | test/type_env_test.rb:182-187 | law of the model, not exercised by a test: a union whose every member is below a type is below that type |
| Subtyping.Transitive | test/type_env_test.rb:51-77 | law of the model, not exercised by a test: with a transitive ancestry, subtyping is transitive |
| Subtyping.LiteralAndUnionExamples | lib/steep/ast/types/literal.rb:44-47 | `1 <: Integer` holds through the back type and `Integer \| String <: Integer \| String \| Symbol` holds member by member, under any ancestry; `Integer \| String <: Integer` fails unless String inherits from Integer |
| MethodParameters.Build | test/method_params_test.rb:34-201 | one slot per parameter except `...`, in parameter order, each naming its parameter with the matching kind; every diagnostic names a positional or keyword parameter, except a single arity mismatch that can only come last; a forward result exists exactly when `...` is present, and it then excludes an arity mismatch; `(?)` reports nothing and forwards the opaque marker |
| MethodParameters.ArityMismatchExactly | test/method_params_test.rb:203-236 | for every `def` and typed method type, an arity mismatch is reported exactly when the `def` has no `...` and either the declared positionals outnumber its `x` and `x = e` parameters with no `*x` to collect them, or some declared keyword (a `**T`, or a name the `def` lacks) has no `**x` to collect it |
| MethodParameters.Get | test/method_params_test.rb:38-46 | `params[name]` finds a slot exactly when some slot has that name, and the slot it returns has that name |
| MethodParameters.NoParameterArgs | test/method_params_test.rb:203-236 | `def foo()` has no slots; it gets no diagnostic against `()` and exactly one arity mismatch against any other positional or keyword signature |
| MethodParameters.RequiredPositionalArg | test/method_params_test.rb:34-88 | `def foo(x)`: against `(T)` one slot typed T, no diagnostic; against `(?T)` and `(*T)` a slot typed T and one parameter mismatch; against `()` an untyped slot and one parameter mismatch |
| MethodParameters.OptionalPositionalArg | test/method_params_test.rb:90-144 | `def foo(x = 1)`: only `(?T)` is silent; `(T)`, `(*T)` and `()` give one different-kind diagnostic |
| MethodParameters.RestAlone | test/method_params_test.rb:146-201 | `def foo(*x)` against any positional signature: one slot typed with the union of all declared positional types, and a different-kind diagnostic unless they are all rest |
| MethodParameters.RestPositionalArg | test/method_params_test.rb:146-201 | `def foo(*x)`: only `(*T)` is silent; the variable is `::Array[T]`, or `::Array[untyped]` against `()` |
| MethodParameters.PostRequiredArg | test/method_params_test.rb:146-201 | model choice, as the tests have no required parameter after `*x` (see "Matcher rules"): `def foo(*a, b)` against `(*A, B)` types `a` with A and `b` with B and reports nothing |
| MethodParameters.RequiredKeywordArg | test/method_params_test.rb:238-292 | `def foo(x:)`: `(x: T)` is silent; `(?x: T)` and `()` give a parameter mismatch; `(**T)` types the slot T |
| MethodParameters.OptionalKeywordArg | test/method_params_test.rb:294-348 | `def foo(x: v)`: `(?x: T)` is silent; `(x: T)`, `(**T)` and `()` give a different-kind diagnostic |
| MethodParameters.RestKeywordArg | test/method_params_test.rb:350-422 | `def foo(**x)`: the slot type is the union of every declared keyword type; no diagnostic exactly when the signature is `(**T)` alone; the variable against `()` is `::Hash[::Symbol, untyped]` |
| MethodParameters.RestKeywordArgUnion | test/method_params_test.rb:353-370 | `def foo(**foo)` against `(foo: String, bar: Integer, **Symbol)` gets the variable `::Hash[::Symbol, String \| Integer \| Symbol]` and one different-kind diagnostic |
| MethodParameters.BlockArgument | test/method_params_test.rb:459-539 | `def foo(&b)`: the slot carries the declared block and its self type; the variable is the proc type, unioned with `nil` when the block is optional, or `nil` when none is declared; never a diagnostic |
| MethodParameters.ForwardArg | test/method_params_test.rb:541-564 | `def foo(...)` forwards the whole declared parameter list and block; against `(?)` it forwards the opaque marker |
| MethodParameters.ForwardArgAfterRequired | test/method_params_test.rb:566-585 | `def foo(x, ...)` forwards what is left after `x` takes the first declared positional |
| MethodParameters.VarType | test/method_params_test.rb:146-539 | a rest parameter's variable is a container whose last type argument is the slot type (`untyped` when none), and a `**x` container is keyed by `::Symbol`; an untyped `x` or `x:` is `untyped`; a block variable is `nil` exactly when no block is declared, and a union containing `nil` exactly when the declared block is optional |
| MethodParameters.OwnVarTypes | test/method_params_test.rb:146-539 | for every `def` in Ruby's parameter order checked against its own signature, each variable has the type its declaration gives it: `x`, `x = e`, `x:` and `x: e` their type T, `*x` `::Array[T]`, `**x` `::Hash[::Symbol, T]`, and `&b` the declared proc, unioned with `nil` when optional, or `nil` when no block is declared |
| MethodParameters.OwnSignatureAccepted | test/method_params_test.rb:38-46 | a `def` without `...`, in Ruby's parameter order (only required positionals after `*x`, no keyword after `**x`) and with distinct keyword names, checked against the method type that declares exactly its own parameters gets no diagnostic, and every slot carries the type declared for its parameter |
| TypeEnvironment.Empty | test/type_env_test.rb:13-36 | a fresh environment reads every key as `untyped` through the fallback |
| TypeEnvironment.Set | test/type_env_test.rb:38-48 | after `set`, `get` returns exactly the set type without fallback, and every other key reads as before |
| TypeEnvironment.Get | test/type_env_test.rb:13-48 | `get` falls back exactly when the key has no installed type; it then reads `untyped`, and otherwise the installed type |
| TypeEnvironment.ResolverConstantAsymmetry | test/type_env_test.rb:149-161 | for a constant the resolver declares but nothing installed, `get` reads `untyped` through the fallback, while `assign` returns the resolver's declaration and fails exactly when the incoming type is not below it (as the override at test/type_env_test.rb:342-357 is checked) |
| TypeEnvironment.Assign | test/type_env_test.rb:13-77 | with a declared type, `assign` returns it whether or not the check passes, does not invoke the block with `nil`, and reports a failure exactly when the incoming type is not a subtype; with none, it returns `untyped`, invokes the block with `nil` and reports no failure |
| TypeEnvironment.AssignWidens | test/type_env_test.rb:51-77 | the incoming type fits `assign`'s result exactly when no failure is reported |
| TypeEnvironment.AssignDeclaredIsSilent | test/type_env_test.rb:51-63 | assigning the declared type itself returns it and does not run the block |
| TypeEnvironment.WithAnnotations | test/type_env_test.rb:177-235 | every override is installed and read back without fallback; untouched keys read as before; a conflict is reported exactly for the overrides that do not fit their key's declared type |
| TypeEnvironment.ConflictMeansMismatch | test/type_env_test.rb:204-218 | a reported conflict names an overridden key, the override, its declared type, and a failing subtyping check |
| TypeEnvironment.Build | test/type_env_test.rb:376-404 | ivar and constant annotations are installed verbatim, the last one of each name winning; global variables take their declared types; every other key reads as `untyped` |
| TypeEnvironment.VariableWithoutAnnotation | test/type_env_test.rb:13-36 | an unannotated variable reads as `untyped` through the fallback, and assigning to it returns `untyped` and invokes the block with `nil` (no failure) |
| TypeEnvironment.DeclaredUntypedDoesNotYield | test/type_env_test.rb:13-63 | assigning to an undeclared key invokes the block with `nil`, while assigning to a key declared `untyped` returns `untyped` and does not run the block at all |
| TypeEnvironment.VariableWithAnnotation | test/type_env_test.rb:38-79 | with `Numeric` set, `get` returns it; assigning Integer is silent; assigning String reports a failure; both assignments return `Numeric` |
| TypeEnvironment.ConstantWithoutAnnotation | test/type_env_test.rb:149-161 | a constant the resolver declares still reads as `untyped` until it is set |
| TypeEnvironment.OverrideWithSubtype | test/type_env_test.rb:189-202 | overriding `Integer \| String` with String installs it and reports nothing |
| TypeEnvironment.OverrideWithUnrelated | test/type_env_test.rb:204-218 | overriding `Integer \| String` with Regexp installs it and reports the key with the failure |
| TypeEnvironment.OverrideUndeclared | test/type_env_test.rb:220-233 | overriding a variable with no declared type installs it and reports nothing |
| TypeEnvironment.OverrideDeclaredConstant | test/type_env_test.rb:342-357 | overriding a constant that was never set, with a type that does not fit its resolver declaration, is reported |
| TypeEnvironment.BuildFromAnnotations | test/type_env_test.rb:376-404 | `@y` and `Foo` get their annotated types, `$foo` gets its declared type, and the local `x` does not enter the environment |
| TypingStore.Root | test/typing_test.rb:35-46 | a new store is one valid empty root layer in which no node is found |
| TypingStore.TypeOf | test/typing_test.rb:89-91 | `type_of` either finds a type or fails with not-found |
| TypingStore.TypeOfIsVisible | test/typing_test.rb:58-69 | `type_of` returns the nearest layer's entry on the chain to the root: it reads the merged view in which each layer overrides its ancestors |
| TypingStore.NotFoundMeansNowhere | test/typing_test.rb:89-91 | `type_of` fails exactly when no layer on the chain to the root has the node |
| TypingStore.AddTyping | test/typing_test.rb:35-46 | `add_typing` fails exactly when the node is already in the layer or the layer was saved; on success it records the node, bumps the layer's version, touches no other layer, and keeps the store valid |
| TypingStore.AddThenRead | test/typing_test.rb:35-46 | a node just recorded in a layer reads back from that layer |
| TypingStore.WriteInvisibleBelow | test/typing_test.rb:82-91 | writes to a layer change nothing that any earlier layer, its parent included, can read; so a discarded child leaves its parent unaffected |
| TypingStore.NewChild | test/typing_test.rb:58-65 | `new_child` appends an empty layer under its parent that records the parent's version, and changes no existing layer |
| TypingStore.ChildSeesParent | test/typing_test.rb:82-83 | creating a child changes no existing layer's view, so the parent keeps reading its node while the child is open (line 83); the new child starts with exactly its parent's view |
| TypingStore.Save | test/typing_test.rb:94-133 | `save!` fails exactly for the root, for a layer already saved, when the parent has been written since the child was created, when the parent was itself saved, or when the child re-types a node of the parent, with the matching error; on success it merges the child into the parent, bumps the parent's version and retires the child |
| TypingStore.SaveCommits | test/typing_test.rb:58-70 | after `save!` the parent's view is its old view extended by the child's entries, which share no node with the parent's own; every entry the parent had keeps its type; the child is retired; no other layer changes |
| TypingStore.SavedEntriesReadable | test/typing_test.rb:64-69 | after `save!` every node the child recorded reads back from the parent with the child's type, every node the parent recorded still reads with the parent's type, and every other node reads as before |
| TypingStore.SaveRefusesRetyping | test/typing_test.rb:58-70 | model choice, as no test re-types a parent's node in a child (see "Other choices"): a child that re-types the root's node cannot be saved (`Conflict`), and the root keeps reading its own type for that node |
| TypingStore.ParentWriteInvalidatesChild | test/typing_test.rb:104-111 | any write to the parent, even of a node the child never wrote, makes the child's `save!` fail |
| TypingStore.SaveInvalidatesSiblings | test/typing_test.rb:122-133 | once one child is saved, a sibling's `save!` fails whatever nodes it wrote |
| TypingStore.Run | test/typing_test.rb:94-133 | any sequence of operations keeps the store valid, keeps every layer and its parent link, and never decreases a version |
| TypingStore.StaleNeverCommits | test/typing_test.rb:104-111 | a child whose parent was written since its creation can never be saved, whatever operations follow |
| TypingStore.RecordAndRead | test/typing_test.rb:35-46 | a node recorded in the root reads back |
| TypingStore.NewChildWithSave | test/typing_test.rb:48-70 | while the child is open the root reads its node; after `save!` the root reads all three nodes |
| TypingStore.NewChildWithoutSave | test/typing_test.rb:72-92 | without `save!` the root reads its own node, and the nodes only the child recorded are not found |
| TypingStore.NewChildCheck | test/typing_test.rb:94-112 | a root write on another node after the child was created makes the child's `save!` fail |
| TypingStore.SaveIntoSavedParentFails | test/typing_test.rb:94-133 | model choice, as no test writes to a saved layer (see "Other choices"): once a child is saved, neither its own child's `save!` nor an `add_typing` into it succeeds; both fail with `Retired` |
| TypingStore.EmptySaveStalesSibling | test/typing_test.rb:114-133 | saving a child that recorded nothing still makes its sibling's `save!` fail |
| TypingStore.NewChildCheck2 | test/typing_test.rb:114-133 | of two siblings that wrote disjoint nodes, the second to `save!` fails |

## Left out

- Literal printing: `to_s` (lib/steep/ast/types/literal.rb:28-30) only produces text.
- Hash values: `Literal#hash` returns Ruby's hash of the class, and the model stands for it by a per-constructor tag. Only the equalities between hashes are modelled.
- Parsing: Ruby source and RBS method types are parsed in the tests. The model takes parameter lists, method types and syntax-node identities as data.
- Subtyping solver: generics, variance, constraint solving and relation chains are not modelled. A failure carries the two types that failed, not the chain. The class hierarchy is a map given as a parameter.
- `self`, `instance` and `class` in `assign` and `with_annotations`: these parameters substitute special types before the check. The model checks without substituting.
- `Union.build`: its flattening and deduplication are not modelled. Unions are plain member lists.
- `Typing.new`: its root context and cursor, and the context argument of `add_typing` (test/typing_test.rb:20-33), carry no information the store's behaviour depends on and are dropped.
- Diagnostics: the node a diagnostic points at, and its message text, are not modelled. Only the kind and the parameter name are.
- Matcher `node` back-references: a slot records the index of its parameter, not the syntax node.
- Forwarded remainder: `forward_arg_type` is printed in the tests (test/method_params_test.rb:541-585). The model compares the remainder as a value, not as text.
- MethodParameters.Build: does not state for a whole list when each per-parameter diagnostic arises. The single-parameter scenario lemmas state it for each kind of parameter; `ArityMismatchExactly` states the arity rule for every list.
- In-place updates: `TypeEnv#set` changes its receiver, and the tests read the same object afterwards (test/type_env_test.rb:43, 111, 168). The model returns the new environment instead, so two holders of one environment object, which would see each other's updates in Ruby, are not modelled.
- Annotation names: the annotation collection makes the type names in annotations absolute (the test of `build` writes `Y` and `X`). The model takes annotation types already absolute (`::Y`, `::X`).
- TypeEnvironment.Build: does not seed constants that only the resolver declares, as explained under "Other choices".

## Findings

| source | as written | input that shows it | evidently intended | confidence | as-written member | corrected member |
|---|---|---|---|---|---|---|
| lib/steep/ast/types/literal.rb:40-42 | `with_location` builds `self.class.new(location: new_location)` without `value:`, a required keyword of the constructor (lines 8-11) | any literal, e.g. `Literal.new(value: 1).with_location(loc)`: Ruby raises `ArgumentError` (missing keyword `:value`) | `self.class.new(value: value, location: new_location)`: the same literal at the new location | high (not executed) | Types.WithLocationAsWrittenRaises | Types.WithLocation |

=== FILE: method_params.dfy ===
/**
 `Steep::TypeInference::MethodParams`: matches the parameter list of a
 `def` against the method type declared for it, giving each parameter a
 typed slot and collecting the diagnostics `MethodArityMismatch`,
 `MethodParameterMismatch` and `DifferentMethodParameterKind`.
 */
module MethodParameters {
  import opened Wrappers
  import opened Types

  /** One parameter of a `def`, in source order. */
  datatype Param =
    | Req(name: string)        // `x`
    | Opt(name: string)        // `x = e`
    | RestArg(name: string)    // `*x`
    | KwReq(name: string)      // `x:`
    | KwOpt(name: string)      // `x: e`
    | KwRestArg(name: string)  // `**x`
    | BlockArg(name: string)   // `&x`
    | Forward                  // `...`

  predicate IsPositional(p: Param)
  {
    p.Req? || p.Opt? || p.RestArg?
  }

  predicate IsNamedKeyword(p: Param)
  {
    p.KwReq? || p.KwOpt?
  }

  predicate IsKeyword(p: Param)
  {
    IsNamedKeyword(p) || p.KwRestArg?
  }

  /** Declared positional parameters, in order: `T`, `?T`, `*T`. */
  datatype PositionalParam = Required(ty: Type) | Optional(ty: Type) | Rest(ty: Type)

  /** Declared keyword parameters: `x: T`, `?x: T` (in declaration order) and `**T`. */
  datatype KeywordParams = KeywordParams(requireds: seq<(string, Type)>, optionals: seq<(string, Type)>, rest: Option<Type>)

  /** The parameter part of a method type; `Untyped` is `(?)`, which accepts anything. */
  datatype Params = Typed(positionals: seq<PositionalParam>, keywords: KeywordParams) | Untyped

  /** A declared block `{ fn }` or `?{ fn }`, possibly with `[self: T]`. */
  datatype BlockSig = BlockSig(fn: Fn, optional: bool, selfType: Option<Type>)

  datatype MethodType = MethodType(params: Params, block: Option<BlockSig>, ret: Type)

  /** A typed parameter; `node` is the index of the parameter in the `def`; `None` types are untyped. */
  datatype Slot =
    | Positional(name: string, ty: Option<Type>, node: nat)
    | PositionalRest(name: string, ty: Option<Type>, node: nat)
    | Keyword(name: string, ty: Option<Type>, node: nat)
    | KeywordRest(name: string, ty: Option<Type>, node: nat)
    | BlockParam(name: string, fn: Option<Fn>, node: nat, optional: bool, selfType: Option<Type>)

  datatype Diagnostic =
    | MethodArityMismatch
    | MethodParameterMismatch(param: string)
    | DifferentMethodParameterKind(param: string)

  /** What `...` forwards: the signature left after the explicit parameters, or `Opaque` (the source's `true`) for `(?)`. */
  datatype Forwarded =
    | Opaque
    | Remainder(positionals: seq<PositionalParam>, keywords: KeywordParams, block: Option<BlockSig>)

  datatype MethodParams = MethodParams(slots: seq<Slot>, errors: seq<Diagnostic>, forward: Option<Forwarded>)

  const NoKeywords := KeywordParams([], [], None)

  predicate KeywordsEmpty(kw: KeywordParams)
  {
    kw.requireds == [] && kw.optionals == [] && kw.rest.None?
  }

  /** The type declared for keyword `name`, first declaration first. */
  function Lookup(kws: seq<(string, Type)>, name: string): (r: Option<Type>)
    ensures r.Some? <==> exists i :: 0 <= i < |kws| && kws[i].0 == name
    ensures r.Some? ==> (name, r.value) in kws
  {
    if kws == [] then None
    else if kws[0].0 == name then Some(kws[0].1)
    else Lookup(kws[1..], name)
  }

  /** The keyword declarations other than `name`'s, order kept. */
  function Without(kws: seq<(string, Type)>, name: string): (r: seq<(string, Type)>)
    ensures forall kv :: kv in r <==> kv in kws && kv.0 != name
    ensures |r| <= |kws|
  {
    if kws == [] then []
    else if kws[0].0 == name then Without(kws[1..], name)
    else [kws[0]] + Without(kws[1..], name)
  }

  function DeclaredTypes(kws: seq<(string, Type)>): seq<Type>
  {
    seq(|kws|, i requires 0 <= i < |kws| => kws[i].1)
  }

  function PositionalTypes(ps: seq<PositionalParam>): seq<Type>
  {
    seq(|ps|, i requires 0 <= i < |ps| => ps[i].ty)
  }

  /** The declared keyword types in the order `requireds`, `optionals`, `**rest`. */
  function KeywordTypes(kw: KeywordParams): seq<Type>
  {
    DeclaredTypes(kw.requireds) + DeclaredTypes(kw.optionals) + (match kw.rest case None => [] case Some(t) => [t])
  }

  /** `Union.build`: no type, the single type, or the union of several. */
  function UnionOf(ts: seq<Type>): Option<Type>
  {
    if ts == [] then None else if |ts| == 1 then Some(ts[0]) else Some(Union(ts))
  }

  function BlockSlot(name: string, node: nat, block: Option<BlockSig>): Slot
  {
    match block
    case None => BlockParam(name, None, node, false, None)
    case Some(b) => BlockParam(name, Some(b.fn), node, b.optional, b.selfType)
  }

  /** The declared signature still unconsumed, and what has been built so far. */
  datatype State = State(
    positionals: seq<PositionalParam>,
    keywords: KeywordParams,
    slots: seq<Slot>,
    errors: seq<Diagnostic>,
    forward: Option<Forwarded>)

  /**
   One parameter against a typed signature. `post` is the number of required
   positional parameters that follow `p` in the `def`: a `*x` leaves that many
   declared positionals, from the end, to them.
   */
  function MatchTyped(st: State, p: Param, node: nat, block: Option<BlockSig>, post: nat): State
  {
    match p
    case Req(x) =>
      if st.positionals == [] then
        st.(slots := st.slots + [Positional(x, None, node)], errors := st.errors + [MethodParameterMismatch(x)])
      else
        var head := st.positionals[0];
        st.(positionals := st.positionals[1..],
            slots := st.slots + [Positional(x, Some(head.ty), node)],
            errors := if head.Required? then st.errors else st.errors + [MethodParameterMismatch(x)])
    case Opt(x) =>
      if st.positionals == [] then
        st.(slots := st.slots + [Positional(x, None, node)], errors := st.errors + [DifferentMethodParameterKind(x)])
      else
        var head := st.positionals[0];
        st.(positionals := st.positionals[1..],
            slots := st.slots + [Positional(x, Some(head.ty), node)],
            errors := if head.Optional? then st.errors else st.errors + [DifferentMethodParameterKind(x)])
    case RestArg(x) =>
      var cut := if post < |st.positionals| then |st.positionals| - post else 0;
      var taken := st.positionals[..cut];
      var onlyRest := AllRest(taken);
      st.(positionals := st.positionals[cut..],
          slots := st.slots + [PositionalRest(x, UnionOf(PositionalTypes(taken)), node)],
          errors := if onlyRest then st.errors else st.errors + [DifferentMethodParameterKind(x)])
    case KwReq(x) =>
      var kw := st.keywords;
      var req := Lookup(kw.requireds, x);
      var opt := Lookup(kw.optionals, x);
      st.(keywords := kw.(requireds := Without(kw.requireds, x), optionals := Without(kw.optionals, x)),
          slots := st.slots + [Keyword(x, if req.Some? then req else if opt.Some? then opt else kw.rest, node)],
          errors := if req.Some? then st.errors else st.errors + [MethodParameterMismatch(x)])
    case KwOpt(x) =>
      var kw := st.keywords;
      var req := Lookup(kw.requireds, x);
      var opt := Lookup(kw.optionals, x);
      st.(keywords := kw.(requireds := Without(kw.requireds, x), optionals := Without(kw.optionals, x)),
          slots := st.slots + [Keyword(x, if opt.Some? then opt else if req.Some? then req else kw.rest, node)],
          errors := if opt.Some? then st.errors else st.errors + [DifferentMethodParameterKind(x)])
    case KwRestArg(x) =>
      var kw := st.keywords;
      var exact := kw.requireds == [] && kw.optionals == [] && kw.rest.Some?;
      st.(keywords := NoKeywords,
          slots := st.slots + [KeywordRest(x, UnionOf(KeywordTypes(kw)), node)],
          errors := if exact then st.errors else st.errors + [DifferentMethodParameterKind(x)])
    case BlockArg(x) =>
      st.(slots := st.slots + [BlockSlot(x, node, block)])
    case Forward =>
      st.(positionals := [], keywords := NoKeywords,
          forward := Some(Remainder(st.positionals, st.keywords, block)))
  }

  /** A non-empty run of declared rest positionals, the only thing a `*x` takes silently. */
  predicate AllRest(pos: seq<PositionalParam>)
  {
    |pos| > 0 && forall i | 0 <= i < |pos| :: pos[i].Rest?
  }

  /** One parameter against `(?)`: everything is `untyped` and nothing is reported. */
  function MatchUntyped(st: State, p: Param, node: nat, block: Option<BlockSig>): State
  {
    match p
    case Req(x) => st.(slots := st.slots + [Positional(x, Some(Any), node)])
    case Opt(x) => st.(slots := st.slots + [Positional(x, Some(Any), node)])
    case RestArg(x) => st.(slots := st.slots + [PositionalRest(x, Some(Any), node)])
    case KwReq(x) => st.(slots := st.slots + [Keyword(x, Some(Any), node)])
    case KwOpt(x) => st.(slots := st.slots + [Keyword(x, Some(Any), node)])
    case KwRestArg(x) => st.(slots := st.slots + [KeywordRest(x, Some(Any), node)])
    case BlockArg(x) => st.(slots := st.slots + [BlockSlot(x, node, block)])
    case Forward => st.(forward := Some(Opaque))
  }

  function NonForwardCount(ps: seq<Param>): nat
  {
    if ps == [] then 0 else (if ps[0].Forward? then 0 else 1) + NonForwardCount(ps[1..])
  }

  /** The slot `s` is the one a parameter `p` gets: same name, matching kind. */
  predicate SlotFor(p: Param, s: Slot)
  {
    match p
    case Req(x) => s.Positional? && s.name == x
    case Opt(x) => s.Positional? && s.name == x
    case RestArg(x) => s.PositionalRest? && s.name == x
    case KwReq(x) => s.Keyword? && s.name == x
    case KwOpt(x) => s.Keyword? && s.name == x
    case KwRestArg(x) => s.KeywordRest? && s.name == x
    case BlockArg(x) => s.BlockParam? && s.name == x
    case Forward => false
  }

  /** A per-parameter diagnostic names a positional or keyword parameter of the `def`. */
  predicate Blames(ps: seq<Param>, d: Diagnostic)
  {
    d.MethodArityMismatch? || exists j :: 0 <= j < |ps| && (IsPositional(ps[j]) || IsKeyword(ps[j])) && ps[j].name == d.param
  }

  /** The number of required positional parameters `x` in `ps`. */
  function RequiredCount(ps: seq<Param>): nat
  {
    if ps == [] then 0 else (if ps[0].Req? then 1 else 0) + RequiredCount(ps[1..])
  }

  /** The number of positional parameters in `ps` that take one declared positional each: `x` and `x = e`. */
  function PositionalCount(ps: seq<Param>): nat
  {
    if ps == [] then 0 else (if ps[0].Req? || ps[0].Opt? then 1 else 0) + PositionalCount(ps[1..])
  }

  /** One parameter matched: at most one slot and at most one diagnostic, both about that parameter. */
  function Step(st: State, p: Param, node: nat, mt: MethodType, post: nat): (r: State)
    ensures |r.slots| == |st.slots| + (if p.Forward? then 0 else 1)
    ensures r.slots[..|st.slots|] == st.slots
    ensures !p.Forward? ==> r.slots[|st.slots|].node == node && SlotFor(p, r.slots[|st.slots|])
    ensures |st.errors| <= |r.errors| <= |st.errors| + 1 && r.errors[..|st.errors|] == st.errors
    ensures |r.errors| > |st.errors| ==>
      (IsPositional(p) || IsKeyword(p)) && !r.errors[|st.errors|].MethodArityMismatch? && r.errors[|st.errors|].param == p.name
    ensures mt.params.Untyped? ==> r.errors == st.errors && r.positionals == st.positionals && r.keywords == st.keywords
  {
    if mt.params.Untyped? then MatchUntyped(st, p, node, mt.block) else MatchTyped(st, p, node, mt.block, post)
  }

  /** The parameters `ps`, which sit at indices `from..` of the `def`, matched in order. */
  function MatchAll(ps: seq<Param>, from: nat, st: State, mt: MethodType): (r: State)
    decreases |ps|
    ensures |r.slots| == |st.slots| + NonForwardCount(ps)
    ensures r.slots[..|st.slots|] == st.slots
    ensures |st.errors| <= |r.errors| && r.errors[..|st.errors|] == st.errors
    ensures mt.params.Untyped? ==> r.errors == st.errors && r.positionals == st.positionals && r.keywords == st.keywords
  {
    if ps == [] then st
    else MatchAll(ps[1..], from + 1, Step(st, ps[0], from, mt, RequiredCount(ps[1..])), mt)
  }

  /** Slots from index `start` on belong to the parameters `ps`, which sit at indices `from..` of the `def`. */
  predicate SlotsBelong(ps: seq<Param>, from: nat, slots: seq<Slot>, start: nat)
  {
    forall k :: start <= k < |slots| ==>
      from <= slots[k].node < from + |ps| && SlotFor(ps[slots[k].node - from], slots[k])
  }

  /** Slots from index `start` on appear in the order of their parameters. */
  predicate SlotsOrdered(slots: seq<Slot>, start: nat)
  {
    forall k, l :: start <= k < l < |slots| ==> slots[k].node < slots[l].node
  }

  /** Diagnostics from index `start` on are per-parameter ones naming a positional or keyword parameter of `ps`. */
  predicate ErrorsBlame(ps: seq<Param>, errors: seq<Diagnostic>, start: nat)
  {
    forall e :: start <= e < |errors| ==> Blames(ps, errors[e]) && !errors[e].MethodArityMismatch?
  }

  /** Each new slot belongs to the parameter at its `node`. */
  lemma {:induction false} MatchAllSlotsBelong(ps: seq<Param>, from: nat, st: State, mt: MethodType)
    ensures SlotsBelong(ps, from, MatchAll(ps, from, st, mt).slots, |st.slots|)
    decreases |ps|
  {
    if ps != [] {
      var next := Step(st, ps[0], from, mt, RequiredCount(ps[1..]));
      MatchAllSlotsBelong(ps[1..], from + 1, next, mt);
      var r := MatchAll(ps[1..], from + 1, next, mt);
      assert MatchAll(ps, from, st, mt) == r;
      forall k | |st.slots| <= k < |r.slots|
        ensures from <= r.slots[k].node < from + |ps| && SlotFor(ps[r.slots[k].node - from], r.slots[k])
      {
        if k < |next.slots| {
          assert r.slots[..|next.slots|][k] == next.slots[k];
        } else {
          assert from + 1 <= r.slots[k].node < from + 1 + |ps[1..]|;
          assert ps[r.slots[k].node - from] == ps[1..][r.slots[k].node - (from + 1)];
        }
      }
    }
  }

  /** New slots appear in the order of their parameters, after `from`. */
  lemma {:induction false} MatchAllSlotsOrdered(ps: seq<Param>, from: nat, st: State, mt: MethodType)
    ensures SlotsOrdered(MatchAll(ps, from, st, mt).slots, |st.slots|)
    decreases |ps|
  {
    if ps != [] {
      var next := Step(st, ps[0], from, mt, RequiredCount(ps[1..]));
      MatchAllSlotsOrdered(ps[1..], from + 1, next, mt);
      MatchAllSlotsBelong(ps[1..], from + 1, next, mt);
      var r := MatchAll(ps[1..], from + 1, next, mt);
      assert MatchAll(ps, from, st, mt) == r;
      forall k, l | |st.slots| <= k < l < |r.slots| ensures r.slots[k].node < r.slots[l].node {
        if k < |next.slots| {
          assert r.slots[..|next.slots|][k] == next.slots[k];
          assert r.slots[k].node == from;
          assert l >= |next.slots|;
        }
      }
    }
  }

  /** Every new diagnostic is a per-parameter one naming a positional or keyword parameter of `ps`. */
  lemma {:induction false} MatchAllErrors(ps: seq<Param>, from: nat, st: State, mt: MethodType)
    ensures ErrorsBlame(ps, MatchAll(ps, from, st, mt).errors, |st.errors|)
    decreases |ps|
  {
    if ps != [] {
      var next := Step(st, ps[0], from, mt, RequiredCount(ps[1..]));
      MatchAllErrors(ps[1..], from + 1, next, mt);
      var r := MatchAll(ps[1..], from + 1, next, mt);
      assert MatchAll(ps, from, st, mt) == r;
      assert ErrorsBlame(ps[1..], r.errors, |next.errors|);
      forall e | |st.errors| <= e < |r.errors| ensures Blames(ps, r.errors[e]) && !r.errors[e].MethodArityMismatch? {
        if e < |next.errors| {
          assert r.errors[e] == next.errors[e];
          assert IsPositional(ps[0]) || IsKeyword(ps[0]);
        } else {
          assert Blames(ps[1..], r.errors[e]) && !r.errors[e].MethodArityMismatch?;
          var j :| 0 <= j < |ps[1..]| && (IsPositional(ps[1..][j]) || IsKeyword(ps[1..][j])) && ps[1..][j].name == r.errors[e].param;
          assert ps[j + 1] == ps[1..][j];
        }
      }
    }
  }

  /** `...` is forwarded exactly when the parameters contain it; once seen, nothing is left to consume. */
  lemma {:induction false} MatchAllForward(ps: seq<Param>, from: nat, st: State, mt: MethodType)
    requires st.forward.None?
    ensures var r := MatchAll(ps, from, st, mt);
      && (r.forward.Some? <==> exists j :: 0 <= j < |ps| && ps[j].Forward?)
      && (r.forward.Some? && mt.params.Typed? ==> r.positionals == [] && KeywordsEmpty(r.keywords) && r.forward.value.Remainder?)
      && (mt.params.Untyped? ==> r.forward.Some? ==> r.forward.value.Opaque?)
    decreases |ps|
  {
    if ps != [] {
      var next := Step(st, ps[0], from, mt, RequiredCount(ps[1..]));
      assert MatchAll(ps, from, st, mt) == MatchAll(ps[1..], from + 1, next, mt);
      if ps[0].Forward? {
        ForwardStays(ps[1..], from + 1, next, mt);
      } else {
        MatchAllForward(ps[1..], from + 1, next, mt);
        assert forall j :: 0 <= j < |ps[1..]| ==> ps[1..][j] == ps[j + 1];
      }
    }
  }

  /** After `...` the remaining parameters (Ruby allows none) keep the forwarded shape and the empty remainder. */
  lemma {:induction false} ForwardStays(ps: seq<Param>, from: nat, st: State, mt: MethodType)
    requires st.forward.Some?
    requires mt.params.Typed? ==> st.positionals == [] && KeywordsEmpty(st.keywords) && st.forward.value.Remainder?
    requires mt.params.Untyped? ==> st.forward.value.Opaque?
    ensures var r := MatchAll(ps, from, st, mt);
      && r.forward.Some?
      && (mt.params.Typed? ==> r.positionals == [] && KeywordsEmpty(r.keywords) && r.forward.value.Remainder?)
      && (mt.params.Untyped? ==> r.forward.value.Opaque?)
    decreases |ps|
  {
    if ps != [] {
      var next := Step(st, ps[0], from, mt, RequiredCount(ps[1..]));
      assert MatchAll(ps, from, st, mt) == MatchAll(ps[1..], from + 1, next, mt);
      ForwardStays(ps[1..], from + 1, next, mt);
    }
  }

  function Start(mt: MethodType): State
  {
    match mt.params
    case Typed(pos, kw) => State(pos, kw, [], [], None)
    case Untyped => State([], NoKeywords, [], [], None)
  }

  /**
   `MethodParams.build`: one slot per parameter other than `...`, in order;
   the per-parameter diagnostics, then one `MethodArityMismatch` when part of
   the declared positional or keyword signature was left unconsumed and the
   `def` does not forward it with `...`.
   */
  function Build(ps: seq<Param>, mt: MethodType): (r: MethodParams)
    ensures |r.slots| == NonForwardCount(ps)
    ensures SlotsBelong(ps, 0, r.slots, 0) && SlotsOrdered(r.slots, 0)
    ensures forall e :: 0 <= e < |r.errors| ==> Blames(ps, r.errors[e])
    ensures forall e :: 0 <= e < |r.errors| - 1 ==> !r.errors[e].MethodArityMismatch?
    ensures r.forward.Some? <==> exists j :: 0 <= j < |ps| && ps[j].Forward?
    ensures r.forward.Some? ==> MethodArityMismatch !in r.errors
    ensures mt.params.Untyped? ==> r.errors == [] && (r.forward.Some? ==> r.forward.value.Opaque?)
    ensures mt.params.Typed? && r.forward.Some? ==> r.forward.value.Remainder?
  {
    var st := MatchAll(ps, 0, Start(mt), mt);
    MatchAllSlotsBelong(ps, 0, Start(mt), mt);
    MatchAllSlotsOrdered(ps, 0, Start(mt), mt);
    MatchAllErrors(ps, 0, Start(mt), mt);
    MatchAllForward(ps, 0, Start(mt), mt);
    Finish(st)
  }

  /** The final arity check: a declared positional or keyword left over, and no `...` to forward it. */
  function Finish(st: State): (r: MethodParams)
    ensures r.slots == st.slots && r.forward == st.forward
    ensures r.errors == st.errors || (st.forward.None? && r.errors == st.errors + [MethodArityMismatch])
    ensures r.errors == st.errors <==> st.forward.Some? || (st.positionals == [] && KeywordsEmpty(st.keywords))
  {
    var unconsumed := st.positionals != [] || !KeywordsEmpty(st.keywords);
    var arity := if st.forward.None? && unconsumed then [MethodArityMismatch] else [];
    MethodParams(st.slots, st.errors + arity, st.forward)
  }

  lemma BuildOne(p: Param, mt: MethodType)
    ensures Build([p], mt) == Finish(Step(Start(mt), p, 0, mt, 0))
  {
    assert [p][1..] == [];
    assert MatchAll([p], 0, Start(mt), mt) == MatchAll([], 1, Step(Start(mt), p, 0, mt, 0), mt);
  }

  lemma BuildTwo(p: Param, q: Param, mt: MethodType)
    ensures Build([p, q], mt) == Finish(Step(Step(Start(mt), p, 0, mt, RequiredCount([q])), q, 1, mt, 0))
  {
    assert [p, q][1..] == [q];
    assert [q][1..] == [];
    var st1 := Step(Start(mt), p, 0, mt, RequiredCount([q]));
    assert MatchAll([p, q], 0, Start(mt), mt) == MatchAll([q], 1, st1, mt);
    assert MatchAll([q], 1, st1, mt) == MatchAll([], 2, Step(st1, q, 1, mt, 0), mt);
  }

  // ---- When the arity mismatch is reported, in terms of the `def` and the method type ----

  predicate HasRestArg(ps: seq<Param>)
  {
    ps != [] && (ps[0].RestArg? || HasRestArg(ps[1..]))
  }

  predicate HasKeywordRestArg(ps: seq<Param>)
  {
    ps != [] && (ps[0].KwRestArg? || HasKeywordRestArg(ps[1..]))
  }

  /** The names of the `x:` and `x: e` parameters. */
  function KeywordNames(ps: seq<Param>): set<string>
  {
    if ps == [] then {} else (if IsNamedKeyword(ps[0]) then {ps[0].name} else {}) + KeywordNames(ps[1..])
  }

  /** Declared positionals that no parameter takes: more of them than `x` and `x = e` parameters, and no `*x`. */
  predicate PositionalsLeft(ps: seq<Param>, pos: seq<PositionalParam>)
  {
    !HasRestArg(ps) && |pos| > PositionalCount(ps)
  }

  /** Declared keywords that no parameter takes: a `**T`, or a declared name the `def` lacks, and no `**x`. */
  predicate KeywordsLeft(ps: seq<Param>, kw: KeywordParams)
  {
    !HasKeywordRestArg(ps) && (kw.rest.Some? || exists kv :: kv in kw.requireds + kw.optionals && kv.0 !in KeywordNames(ps))
  }

  lemma RequiredAtMostPositional(ps: seq<Param>)
    ensures RequiredCount(ps) <= PositionalCount(ps)
  {
  }

  /** Without `...`, the declared positionals left over are those beyond the `x` and `x = e` parameters, unless a `*x` takes them. */
  lemma {:induction false} MatchAllPositionalsLeft(ps: seq<Param>, from: nat, st: State, mt: MethodType)
    requires mt.params.Typed? && forall j :: 0 <= j < |ps| ==> !ps[j].Forward?
    ensures |MatchAll(ps, from, st, mt).positionals|
      == if HasRestArg(ps) || |st.positionals| <= PositionalCount(ps) then 0 else |st.positionals| - PositionalCount(ps)
    decreases |ps|
  {
    if ps != [] {
      var next := Step(st, ps[0], from, mt, RequiredCount(ps[1..]));
      assert forall j :: 0 <= j < |ps[1..]| ==> ps[1..][j] == ps[j + 1];
      MatchAllPositionalsLeft(ps[1..], from + 1, next, mt);
      assert MatchAll(ps, from, st, mt) == MatchAll(ps[1..], from + 1, next, mt);
      if ps[0].RestArg? {
        RequiredAtMostPositional(ps[1..]);
      }
    }
  }

  /** Without `...`, some declared keyword is left over exactly when `KeywordsLeft` says so. */
  lemma {:induction false} MatchAllKeywordsLeft(ps: seq<Param>, from: nat, st: State, mt: MethodType)
    requires mt.params.Typed? && forall j :: 0 <= j < |ps| ==> !ps[j].Forward?
    ensures KeywordsEmpty(MatchAll(ps, from, st, mt).keywords) <==> !KeywordsLeft(ps, st.keywords)
    decreases |ps|
  {
    var kw := st.keywords;
    if ps == [] {
      if kw.requireds != [] {
        assert kw.requireds[0] in kw.requireds + kw.optionals;
      } else if kw.optionals != [] {
        assert kw.optionals[0] in kw.requireds + kw.optionals;
      }
    } else {
      var next := Step(st, ps[0], from, mt, RequiredCount(ps[1..]));
      assert forall j :: 0 <= j < |ps[1..]| ==> ps[1..][j] == ps[j + 1];
      MatchAllKeywordsLeft(ps[1..], from + 1, next, mt);
      assert MatchAll(ps, from, st, mt) == MatchAll(ps[1..], from + 1, next, mt);
      if IsNamedKeyword(ps[0]) {
        NamedKeywordConsumed(ps, kw, next.keywords);
      }
    }
  }

  /** A named keyword parameter `x` removes `x`'s declarations, which is what its name in `KeywordNames` accounts for. */
  lemma NamedKeywordConsumed(ps: seq<Param>, kw: KeywordParams, kw': KeywordParams)
    requires ps != [] && IsNamedKeyword(ps[0])
    requires kw' == kw.(requireds := Without(kw.requireds, ps[0].name), optionals := Without(kw.optionals, ps[0].name))
    ensures KeywordsLeft(ps[1..], kw') <==> KeywordsLeft(ps, kw)
  {
    var x, names := ps[0].name, KeywordNames(ps[1..]);
    assert KeywordNames(ps) == {x} + names;
    if exists kv :: kv in kw'.requireds + kw'.optionals && kv.0 !in names {
      var kv :| kv in kw'.requireds + kw'.optionals && kv.0 !in names;
      assert kv in kw.requireds + kw.optionals && kv.0 !in KeywordNames(ps);
    }
    if exists kv :: kv in kw.requireds + kw.optionals && kv.0 !in KeywordNames(ps) {
      var kv :| kv in kw.requireds + kw.optionals && kv.0 !in KeywordNames(ps);
      assert kv in kw'.requireds + kw'.optionals && kv.0 !in names;
    }
  }

  /**
   The arity mismatch, stated on the inputs: `Build` reports it exactly when the
   `def` has no `...` and leaves part of the declared positional or keyword
   signature untaken.
   */
  lemma ArityMismatchExactly(ps: seq<Param>, mt: MethodType)
    requires mt.params.Typed?
    ensures MethodArityMismatch in Build(ps, mt).errors <==>
      (forall j :: 0 <= j < |ps| ==> !ps[j].Forward?)
      && (PositionalsLeft(ps, mt.params.positionals) || KeywordsLeft(ps, mt.params.keywords))
  {
    var st := MatchAll(ps, 0, Start(mt), mt);
    MatchAllErrors(ps, 0, Start(mt), mt);
    MatchAllForward(ps, 0, Start(mt), mt);
    assert MethodArityMismatch !in st.errors by {
      forall e | 0 <= e < |st.errors| ensures st.errors[e] != MethodArityMismatch {
        assert !st.errors[e].MethodArityMismatch?;
      }
    }
    if forall j :: 0 <= j < |ps| ==> !ps[j].Forward? {
      MatchAllPositionalsLeft(ps, 0, Start(mt), mt);
      MatchAllKeywordsLeft(ps, 0, Start(mt), mt);
    }
  }

  /** `MethodParams#[]`: the parameter called `name`, if any. */
  function Get(mp: MethodParams, name: string): (r: Option<Slot>)
    ensures r.Some? <==> exists k :: 0 <= k < |mp.slots| && mp.slots[k].name == name
    ensures r.Some? ==> r.value in mp.slots && r.value.name == name
  {
    FirstNamed(mp.slots, name)
  }

  function FirstNamed(slots: seq<Slot>, name: string): (r: Option<Slot>)
    ensures r.Some? <==> exists k :: 0 <= k < |slots| && slots[k].name == name
    ensures r.Some? ==> r.value in slots && r.value.name == name
  {
    if slots == [] then None
    else if slots[0].name == name then Some(slots[0])
    else FirstNamed(slots[1..], name)
  }

  /** `untyped` for a parameter the signature gives no type. */
  function OrUntyped(t: Option<Type>): Type
  {
    match t case None => Any case Some(x) => x
  }

  /**
   `#var_type`: the type of the local variable the parameter binds. A rest
   parameter collects its element type into a container; a block parameter
   is `nil` exactly when no block is declared, and may be `nil` when it is optional.
   */
  function VarType(s: Slot): (r: Type)
    ensures (s.Positional? || s.Keyword?) && s.ty.None? ==> r == Any
    ensures s.PositionalRest? || s.KeywordRest? ==> r.Name? && r.args != [] && r.args[|r.args| - 1] == OrUntyped(s.ty)
    ensures s.KeywordRest? ==> r.args[0] == Instance("::Symbol")
    ensures s.BlockParam? ==> (r == Nil <==> s.fn.None?)
    ensures s.BlockParam? && s.fn.Some? ==> (r.Union? <==> s.optional) && (r.Union? ==> Nil in r.types)
  {
    match s
    case Positional(_, ty, _) => OrUntyped(ty)
    case Keyword(_, ty, _) => OrUntyped(ty)
    case PositionalRest(_, ty, _) => Name("::Array", [OrUntyped(ty)])
    case KeywordRest(_, ty, _) => Name("::Hash", [Instance("::Symbol"), OrUntyped(ty)])
    case BlockParam(_, fn, _, optional, selfType) =>
      match fn
      case None => Nil
      case Some(f) => if optional then Union([Proc(f, selfType), Nil]) else Proc(f, selfType)
  }

  /** A method type with the given parameters, an optional block and `void` return. */
  function Sig(pos: seq<PositionalParam>, kw: KeywordParams, block: Option<BlockSig>): MethodType
  {
    MethodType(Typed(pos, kw), block, Void)
  }

  /** `def foo()`: no slots; no diagnostic against `()`, one `MethodArityMismatch` against anything else. */
  lemma NoParameterArgs(mt: MethodType)
    requires mt.params.Typed?
    ensures Build([], mt).slots == [] && Build([], mt).forward.None?
    ensures Build([], mt).errors ==
      if mt.params.positionals == [] && KeywordsEmpty(mt.params.keywords) then [] else [MethodArityMismatch]
  {
  }

  /** `def foo(x)` against `(T)`, `(?T)`, `(*T)` and `()`. */
  lemma RequiredPositionalArg(x: string, t: Type, block: Option<BlockSig>)
    ensures Build([Req(x)], Sig([Required(t)], NoKeywords, block)) == MethodParams([Positional(x, Some(t), 0)], [], None)
    ensures Build([Req(x)], Sig([Optional(t)], NoKeywords, block))
      == MethodParams([Positional(x, Some(t), 0)], [MethodParameterMismatch(x)], None)
    ensures Build([Req(x)], Sig([Rest(t)], NoKeywords, block))
      == MethodParams([Positional(x, Some(t), 0)], [MethodParameterMismatch(x)], None)
    ensures Build([Req(x)], Sig([], NoKeywords, block))
      == MethodParams([Positional(x, None, 0)], [MethodParameterMismatch(x)], None)
  {
    forall mt: MethodType { BuildOne(Req(x), mt); }
  }

  /** `def foo(x = 1)` against `(T)`, `(?T)`, `(*T)` and `()`. */
  lemma OptionalPositionalArg(x: string, t: Type, block: Option<BlockSig>)
    ensures Build([Opt(x)], Sig([Required(t)], NoKeywords, block))
      == MethodParams([Positional(x, Some(t), 0)], [DifferentMethodParameterKind(x)], None)
    ensures Build([Opt(x)], Sig([Optional(t)], NoKeywords, block)) == MethodParams([Positional(x, Some(t), 0)], [], None)
    ensures Build([Opt(x)], Sig([Rest(t)], NoKeywords, block))
      == MethodParams([Positional(x, Some(t), 0)], [DifferentMethodParameterKind(x)], None)
    ensures Build([Opt(x)], Sig([], NoKeywords, block))
      == MethodParams([Positional(x, None, 0)], [DifferentMethodParameterKind(x)], None)
  {
    forall mt: MethodType { BuildOne(Opt(x), mt); }
  }

  /** `def foo(*x)` alone collects every declared positional, and is silent only when they are all rest. */
  lemma RestAlone(x: string, pos: seq<PositionalParam>, block: Option<BlockSig>)
    ensures Build([RestArg(x)], Sig(pos, NoKeywords, block)) == MethodParams(
      [PositionalRest(x, UnionOf(PositionalTypes(pos)), 0)],
      if AllRest(pos) then [] else [DifferentMethodParameterKind(x)],
      None)
  {
    var mt := Sig(pos, NoKeywords, block);
    BuildOne(RestArg(x), mt);
    assert pos[..|pos|] == pos && pos[|pos|..] == [];
    var st := Step(Start(mt), RestArg(x), 0, mt, 0);
    assert st == MatchTyped(State(pos, NoKeywords, [], [], None), RestArg(x), 0, block, 0);
    assert st.positionals == [] && KeywordsEmpty(st.keywords) && st.forward.None?;
    assert st.slots == [PositionalRest(x, UnionOf(PositionalTypes(pos)), 0)];
  }

  /** `def foo(*x)` against `(T)`, `(?T)`, `(*T)` and `()`, with the `::Array[...]` variable type. */
  lemma RestPositionalArg(x: string, t: Type, block: Option<BlockSig>)
    ensures Build([RestArg(x)], Sig([Required(t)], NoKeywords, block))
      == MethodParams([PositionalRest(x, Some(t), 0)], [DifferentMethodParameterKind(x)], None)
    ensures Build([RestArg(x)], Sig([Optional(t)], NoKeywords, block))
      == MethodParams([PositionalRest(x, Some(t), 0)], [DifferentMethodParameterKind(x)], None)
    ensures Build([RestArg(x)], Sig([Rest(t)], NoKeywords, block)) == MethodParams([PositionalRest(x, Some(t), 0)], [], None)
    ensures Build([RestArg(x)], Sig([], NoKeywords, block))
      == MethodParams([PositionalRest(x, None, 0)], [DifferentMethodParameterKind(x)], None)
    ensures VarType(PositionalRest(x, Some(t), 0)) == Name("::Array", [t])
    ensures VarType(PositionalRest(x, None, 0)) == Name("::Array", [Any])
  {
    RestAgainstOne(x, Required(t), block);
    RestAgainstOne(x, Optional(t), block);
    RestAgainstOne(x, Rest(t), block);
    RestAlone(x, [], block);
  }

  /** `def foo(*x)` against a single declared positional. */
  lemma RestAgainstOne(x: string, head: PositionalParam, block: Option<BlockSig>)
    ensures Build([RestArg(x)], Sig([head], NoKeywords, block))
      == MethodParams([PositionalRest(x, Some(head.ty), 0)], if head.Rest? then [] else [DifferentMethodParameterKind(x)], None)
  {
    RestAlone(x, [head], block);
    assert PositionalTypes([head]) == [head.ty];
    assert AllRest([head]) == head.Rest?;
  }

  /** `def foo(*a, b)` against `(*A, B)`: the trailing `B` is left to `b`, and nothing is reported. */
  lemma PostRequiredArg(a: string, b: string, ta: Type, tb: Type, block: Option<BlockSig>)
    ensures Build([RestArg(a), Req(b)], Sig([Rest(ta), Required(tb)], NoKeywords, block))
      == MethodParams([PositionalRest(a, Some(ta), 0), Positional(b, Some(tb), 1)], [], None)
  {
    var pos := [Rest(ta), Required(tb)];
    var mt := Sig(pos, NoKeywords, block);
    BuildTwo(RestArg(a), Req(b), mt);
    assert RequiredCount([Req(b)]) == 1;
    assert pos[..1] == [Rest(ta)] && pos[1..] == [Required(tb)];
    assert PositionalTypes([Rest(ta)]) == [ta];
    assert AllRest([Rest(ta)]);
    var st1 := Step(Start(mt), RestArg(a), 0, mt, 1);
    assert st1 == Start(mt).(positionals := [Required(tb)], slots := [PositionalRest(a, Some(ta), 0)]);
    var st2 := Step(st1, Req(b), 1, mt, 0);
    assert st2 == st1.(positionals := [], slots := [PositionalRest(a, Some(ta), 0), Positional(b, Some(tb), 1)]);
  }

  /** `def foo(x:)` against `(x: T)`, `(?x: T)`, `(**T)` and `()`. */
  lemma RequiredKeywordArg(x: string, t: Type, block: Option<BlockSig>)
    ensures Build([KwReq(x)], Sig([], KeywordParams([(x, t)], [], None), block))
      == MethodParams([Keyword(x, Some(t), 0)], [], None)
    ensures Build([KwReq(x)], Sig([], KeywordParams([], [(x, t)], None), block))
      == MethodParams([Keyword(x, Some(t), 0)], [MethodParameterMismatch(x)], None)
    ensures Build([KwReq(x)], Sig([], KeywordParams([], [], Some(t)), block))
      == MethodParams([Keyword(x, Some(t), 0)], [MethodParameterMismatch(x), MethodArityMismatch], None)
    ensures Build([KwReq(x)], Sig([], NoKeywords, block))
      == MethodParams([Keyword(x, None, 0)], [MethodParameterMismatch(x)], None)
  {
    forall mt: MethodType { BuildOne(KwReq(x), mt); }
  }

  /** `def foo(x: '')` against `(x: T)`, `(?x: T)`, `(**T)` and `()`. */
  lemma OptionalKeywordArg(x: string, t: Type, block: Option<BlockSig>)
    ensures Build([KwOpt(x)], Sig([], KeywordParams([(x, t)], [], None), block))
      == MethodParams([Keyword(x, Some(t), 0)], [DifferentMethodParameterKind(x)], None)
    ensures Build([KwOpt(x)], Sig([], KeywordParams([], [(x, t)], None), block))
      == MethodParams([Keyword(x, Some(t), 0)], [], None)
    ensures Build([KwOpt(x)], Sig([], KeywordParams([], [], Some(t)), block))
      == MethodParams([Keyword(x, Some(t), 0)], [DifferentMethodParameterKind(x), MethodArityMismatch], None)
    ensures Build([KwOpt(x)], Sig([], NoKeywords, block))
      == MethodParams([Keyword(x, None, 0)], [DifferentMethodParameterKind(x)], None)
  {
    forall mt: MethodType { BuildOne(KwOpt(x), mt); }
  }

  /**
   `def foo(**x)`: the slot type is the union of every declared keyword type and
   the `**` type, and the parameter is reported unless the signature is exactly `(**T)`.
   */
  lemma RestKeywordArg(x: string, kw: KeywordParams, block: Option<BlockSig>)
    ensures var r := Build([KwRestArg(x)], Sig([], kw, block));
      && r.slots == [KeywordRest(x, UnionOf(KeywordTypes(kw)), 0)]
      && (r.errors == [] <==> kw.requireds == [] && kw.optionals == [] && kw.rest.Some?)
      && (r.errors != [] ==> r.errors == [DifferentMethodParameterKind(x)])
    ensures kw == NoKeywords ==>
      VarType(Build([KwRestArg(x)], Sig([], kw, block)).slots[0]) == Name("::Hash", [Instance("::Symbol"), Any])
  {
    BuildOne(KwRestArg(x), Sig([], kw, block));
  }

  /** `def foo(**foo)` against `(foo: String, bar: Integer, **Symbol)`. */
  lemma RestKeywordArgUnion(block: Option<BlockSig>)
    ensures var str, num, sym := Instance("::String"), Instance("::Integer"), Instance("::Symbol");
      var r := Build([KwRestArg("foo")], Sig([], KeywordParams([("foo", str), ("bar", num)], [], Some(sym)), block));
      && r.slots == [KeywordRest("foo", Some(Union([str, num, sym])), 0)]
      && VarType(r.slots[0]) == Name("::Hash", [sym, Union([str, num, sym])])
      && r.errors == [DifferentMethodParameterKind("foo")]
  {
    var str, num, sym := Instance("::String"), Instance("::Integer"), Instance("::Symbol");
    var kw := KeywordParams([("foo", str), ("bar", num)], [], Some(sym));
    assert DeclaredTypes(kw.requireds) == [str, num];
    assert DeclaredTypes(kw.optionals) == [];
    assert KeywordTypes(kw) == [str, num, sym];
    BuildOne(KwRestArg("foo"), Sig([], kw, block));
  }

  /** `def foo(&block)`: required, `[self: T]`, optional and absent declared blocks; never a diagnostic. */
  lemma BlockArgument(x: string, f: Fn, selfType: Option<Type>, optional: bool)
    ensures var r := Build([BlockArg(x)], Sig([], NoKeywords, Some(BlockSig(f, optional, selfType))));
      && r == MethodParams([BlockParam(x, Some(f), 0, optional, selfType)], [], None)
      && VarType(r.slots[0]) == if optional then Union([Proc(f, selfType), Nil]) else Proc(f, selfType)
    ensures var r := Build([BlockArg(x)], Sig([], NoKeywords, None));
      && r == MethodParams([BlockParam(x, None, 0, false, None)], [], None)
      && VarType(r.slots[0]) == Nil
  {
    forall mt: MethodType { BuildOne(BlockArg(x), mt); }
  }

  /** `def foo(...)` forwards the whole declared signature and block; `(?)` forwards the opaque marker. */
  lemma ForwardArg(pos: seq<PositionalParam>, kw: KeywordParams, block: Option<BlockSig>, ret: Type)
    ensures Build([Forward], MethodType(Typed(pos, kw), block, ret)) == MethodParams([], [], Some(Remainder(pos, kw, block)))
    ensures Build([Forward], MethodType(Untyped, block, ret)) == MethodParams([], [], Some(Opaque))
  {
  }

  /** `def foo(x, ...)` forwards what is left after `x` took the first declared positional. */
  lemma ForwardArgAfterRequired(x: string, head: PositionalParam, pos: seq<PositionalParam>, kw: KeywordParams, block: Option<BlockSig>)
    ensures var r := Build([Req(x), Forward], Sig([head] + pos, kw, block));
      && r.slots == [Positional(x, Some(head.ty), 0)]
      && r.forward == Some(Remainder(pos, kw, block))
      && r.errors == if head.Required? then [] else [MethodParameterMismatch(x)]
  {
    BuildTwo(Req(x), Forward, Sig([head] + pos, kw, block));
  }

  /** The positional signature a `def` declares for itself, one type per parameter. */
  function OwnPositionals(ps: seq<Param>, tys: seq<Type>): seq<PositionalParam>
    requires |ps| == |tys|
  {
    if ps == [] then []
    else
      var head := match ps[0]
        case Req(_) => [Required(tys[0])]
        case Opt(_) => [Optional(tys[0])]
        case RestArg(_) => [Rest(tys[0])]
        case _ => [];
      head + OwnPositionals(ps[1..], tys[1..])
  }

  function OwnRequiredKeywords(ps: seq<Param>, tys: seq<Type>): seq<(string, Type)>
    requires |ps| == |tys|
  {
    if ps == [] then []
    else (if ps[0].KwReq? then [(ps[0].name, tys[0])] else []) + OwnRequiredKeywords(ps[1..], tys[1..])
  }

  function OwnOptionalKeywords(ps: seq<Param>, tys: seq<Type>): seq<(string, Type)>
    requires |ps| == |tys|
  {
    if ps == [] then []
    else (if ps[0].KwOpt? then [(ps[0].name, tys[0])] else []) + OwnOptionalKeywords(ps[1..], tys[1..])
  }

  function OwnKeywordRest(ps: seq<Param>, tys: seq<Type>): Option<Type>
    requires |ps| == |tys|
  {
    if ps == [] then None
    else if ps[0].KwRestArg? then Some(tys[0])
    else OwnKeywordRest(ps[1..], tys[1..])
  }

  function OwnKeywords(ps: seq<Param>, tys: seq<Type>): KeywordParams
    requires |ps| == |tys|
  {
    KeywordParams(OwnRequiredKeywords(ps, tys), OwnOptionalKeywords(ps, tys), OwnKeywordRest(ps, tys))
  }

  /** The method type that declares exactly the parameters of the `def`, typed by `tys`. */
  function OwnSignature(ps: seq<Param>, tys: seq<Type>, block: Option<BlockSig>): MethodType
    requires |ps| == |tys|
  {
    Sig(OwnPositionals(ps, tys), OwnKeywords(ps, tys), block)
  }

  /**
   A parameter list as Ruby accepts it, without `...`: only required positionals
   after `*x`, no keyword after `**x`, and distinct keyword names.
   */
  predicate Canonical(ps: seq<Param>)
  {
    && (forall j :: 0 <= j < |ps| ==> !ps[j].Forward?)
    && (forall i, j :: 0 <= i < j < |ps| && ps[i].RestArg? ==> !ps[j].Opt? && !ps[j].RestArg?)
    && (forall i, j :: 0 <= i < j < |ps| && ps[i].KwRestArg? ==> !IsKeyword(ps[j]))
    && (forall i, j :: 0 <= i < j < |ps| && IsNamedKeyword(ps[i]) && IsNamedKeyword(ps[j]) ==> ps[i].name != ps[j].name)
  }

  /** The slot carries the type the `def` gave its parameter (or, for `&b`, the declared block). */
  predicate CarriesOwnType(s: Slot, t: Type, block: Option<BlockSig>)
  {
    if s.BlockParam? then s == BlockSlot(s.name, s.node, block) else s.ty == Some(t)
  }

  lemma CanonicalTail(ps: seq<Param>)
    requires ps != [] && Canonical(ps)
    ensures Canonical(ps[1..])
  {
    assert forall j :: 0 <= j < |ps[1..]| ==> ps[1..][j] == ps[j + 1];
  }

  /** When every positional parameter is required, the own positional signature has one entry per parameter `x`. */
  lemma {:induction false} OnlyRequiredLeft(ps: seq<Param>, tys: seq<Type>)
    requires |ps| == |tys|
    requires forall j :: 0 <= j < |ps| ==> !ps[j].Opt? && !ps[j].RestArg?
    ensures |OwnPositionals(ps, tys)| == RequiredCount(ps)
    decreases |ps|
  {
    if ps != [] {
      assert forall j :: 0 <= j < |ps[1..]| ==> ps[1..][j] == ps[j + 1];
      OnlyRequiredLeft(ps[1..], tys[1..]);
    }
  }

  lemma {:induction false} NoKeywordLeft(ps: seq<Param>, tys: seq<Type>)
    requires |ps| == |tys|
    requires forall j :: 0 <= j < |ps| ==> !IsKeyword(ps[j])
    ensures OwnKeywords(ps, tys) == NoKeywords
    decreases |ps|
  {
    if ps != [] {
      assert forall j :: 0 <= j < |ps[1..]| ==> ps[1..][j] == ps[j + 1];
      NoKeywordLeft(ps[1..], tys[1..]);
    }
  }

  /** Every own keyword declaration comes from a keyword parameter of that name and kind. */
  lemma {:induction false} OwnKeywordsNamed(ps: seq<Param>, tys: seq<Type>)
    requires |ps| == |tys|
    ensures forall kv :: kv in OwnRequiredKeywords(ps, tys) ==> exists j :: 0 <= j < |ps| && ps[j] == KwReq(kv.0)
    ensures forall kv :: kv in OwnOptionalKeywords(ps, tys) ==> exists j :: 0 <= j < |ps| && ps[j] == KwOpt(kv.0)
    decreases |ps|
  {
    if ps != [] {
      OwnKeywordsNamed(ps[1..], tys[1..]);
      assert forall j :: 0 <= j < |ps[1..]| ==> ps[1..][j] == ps[j + 1];
    }
  }

  lemma WithoutAbsent(kws: seq<(string, Type)>, name: string)
    requires forall kv :: kv in kws ==> kv.0 != name
    ensures Without(kws, name) == kws
  {
  }

  /** The first parameter's own declaration heads the signature; the rest belongs to the tail. */
  lemma OwnUnfold(ps: seq<Param>, tys: seq<Type>)
    requires ps != [] && |ps| == |tys|
    ensures ps[0].Req? ==> OwnPositionals(ps, tys) == [Required(tys[0])] + OwnPositionals(ps[1..], tys[1..])
    ensures ps[0].Opt? ==> OwnPositionals(ps, tys) == [Optional(tys[0])] + OwnPositionals(ps[1..], tys[1..])
    ensures ps[0].RestArg? ==> OwnPositionals(ps, tys) == [Rest(tys[0])] + OwnPositionals(ps[1..], tys[1..])
    ensures !IsPositional(ps[0]) ==> OwnPositionals(ps, tys) == OwnPositionals(ps[1..], tys[1..])
    ensures ps[0].KwReq? ==> OwnRequiredKeywords(ps, tys) == [(ps[0].name, tys[0])] + OwnRequiredKeywords(ps[1..], tys[1..])
    ensures !ps[0].KwReq? ==> OwnRequiredKeywords(ps, tys) == OwnRequiredKeywords(ps[1..], tys[1..])
    ensures ps[0].KwOpt? ==> OwnOptionalKeywords(ps, tys) == [(ps[0].name, tys[0])] + OwnOptionalKeywords(ps[1..], tys[1..])
    ensures !ps[0].KwOpt? ==> OwnOptionalKeywords(ps, tys) == OwnOptionalKeywords(ps[1..], tys[1..])
    ensures ps[0].KwRestArg? ==> OwnKeywordRest(ps, tys) == Some(tys[0])
    ensures !ps[0].KwRestArg? ==> OwnKeywordRest(ps, tys) == OwnKeywordRest(ps[1..], tys[1..])
  {
  }

  lemma StepOwnPositional(ps: seq<Param>, tys: seq<Type>, from: nat, st: State, block: Option<BlockSig>)
    requires ps != [] && |ps| == |tys| && Canonical(ps) && IsPositional(ps[0])
    requires st.positionals == OwnPositionals(ps, tys) && st.keywords == OwnKeywords(ps, tys)
    ensures var next := MatchTyped(st, ps[0], from, block, RequiredCount(ps[1..]));
      && next.positionals == OwnPositionals(ps[1..], tys[1..])
      && next.keywords == st.keywords
      && next.errors == st.errors && next.forward == st.forward
      && next.slots == st.slots + [next.slots[|st.slots|]]
      && CarriesOwnType(next.slots[|st.slots|], tys[0], block)
  {
    OwnUnfold(ps, tys);
    if ps[0].RestArg? {
      assert forall j :: 0 <= j < |ps[1..]| ==> ps[1..][j] == ps[j + 1];
      OnlyRequiredLeft(ps[1..], tys[1..]);
      assert st.positionals[..1] == [Rest(tys[0])];
      assert st.positionals[1..] == OwnPositionals(ps[1..], tys[1..]);
      assert PositionalTypes([Rest(tys[0])]) == [tys[0]];
    }
  }

  lemma StepOwnKeyword(ps: seq<Param>, tys: seq<Type>, from: nat, st: State, block: Option<BlockSig>)
    requires ps != [] && |ps| == |tys| && Canonical(ps) && IsNamedKeyword(ps[0])
    requires st.positionals == OwnPositionals(ps, tys) && st.keywords == OwnKeywords(ps, tys)
    ensures var next := MatchTyped(st, ps[0], from, block, RequiredCount(ps[1..]));
      && next.positionals == st.positionals
      && next.keywords == OwnKeywords(ps[1..], tys[1..])
      && next.errors == st.errors && next.forward == st.forward
      && next.slots == st.slots + [next.slots[|st.slots|]]
      && CarriesOwnType(next.slots[|st.slots|], tys[0], block)
  {
    var ps', tys', x := ps[1..], tys[1..], ps[0].name;
    OwnUnfold(ps, tys);
    assert forall j :: 0 <= j < |ps'| ==> ps'[j] == ps[j + 1];
    OwnKeywordsNamed(ps', tys');
    forall kv | kv in OwnRequiredKeywords(ps', tys') ensures kv.0 != x {
      var j :| 0 <= j < |ps'| && ps'[j] == KwReq(kv.0);
      assert IsNamedKeyword(ps[j + 1]);
    }
    forall kv | kv in OwnOptionalKeywords(ps', tys') ensures kv.0 != x {
      var j :| 0 <= j < |ps'| && ps'[j] == KwOpt(kv.0);
      assert IsNamedKeyword(ps[j + 1]);
    }
    WithoutAbsent(OwnRequiredKeywords(ps', tys'), x);
    WithoutAbsent(OwnOptionalKeywords(ps', tys'), x);
  }

  lemma StepOwnKeywordRest(ps: seq<Param>, tys: seq<Type>, from: nat, st: State, block: Option<BlockSig>)
    requires ps != [] && |ps| == |tys| && Canonical(ps) && ps[0].KwRestArg?
    requires st.positionals == OwnPositionals(ps, tys) && st.keywords == OwnKeywords(ps, tys)
    ensures var next := MatchTyped(st, ps[0], from, block, RequiredCount(ps[1..]));
      && next.positionals == st.positionals
      && next.keywords == OwnKeywords(ps[1..], tys[1..])
      && next.errors == st.errors && next.forward == st.forward
      && next.slots == st.slots + [next.slots[|st.slots|]]
      && CarriesOwnType(next.slots[|st.slots|], tys[0], block)
  {
    OwnUnfold(ps, tys);
    assert forall j :: 0 <= j < |ps[1..]| ==> ps[1..][j] == ps[j + 1];
    NoKeywordLeft(ps[1..], tys[1..]);
    assert st.keywords == KeywordParams([], [], Some(tys[0]));
    assert KeywordTypes(st.keywords) == [tys[0]];
  }

  /** One step of the round trip: the first parameter consumes exactly its own declaration. */
  lemma StepOwn(ps: seq<Param>, tys: seq<Type>, from: nat, st: State, mt: MethodType)
    requires ps != [] && |ps| == |tys| && Canonical(ps) && mt.params.Typed?
    requires st.positionals == OwnPositionals(ps, tys) && st.keywords == OwnKeywords(ps, tys)
    ensures var next := Step(st, ps[0], from, mt, RequiredCount(ps[1..]));
      && next.positionals == OwnPositionals(ps[1..], tys[1..])
      && next.keywords == OwnKeywords(ps[1..], tys[1..])
      && next.errors == st.errors && next.forward == st.forward
      && CarriesOwnType(next.slots[|st.slots|], tys[0], mt.block)
  {
    OwnUnfold(ps, tys);
    if IsPositional(ps[0]) {
      StepOwnPositional(ps, tys, from, st, mt.block);
    } else if IsNamedKeyword(ps[0]) {
      StepOwnKeyword(ps, tys, from, st, mt.block);
    } else if ps[0].KwRestArg? {
      StepOwnKeywordRest(ps, tys, from, st, mt.block);
    } else {
      assert ps[0].BlockArg?;
    }
  }

  /** Slots from index `start` on carry the types `tys` gives the parameters at indices `from..`. */
  predicate SlotsOwnTyped(tys: seq<Type>, from: nat, slots: seq<Slot>, start: nat, block: Option<BlockSig>)
  {
    forall k :: start <= k < |slots| ==>
      from <= slots[k].node < from + |tys| && CarriesOwnType(slots[k], tys[slots[k].node - from], block)
  }

  lemma {:induction false} MatchAllOwn(ps: seq<Param>, tys: seq<Type>, from: nat, st: State, mt: MethodType)
    requires |ps| == |tys| && Canonical(ps) && mt.params.Typed?
    requires st.positionals == OwnPositionals(ps, tys) && st.keywords == OwnKeywords(ps, tys)
    ensures MatchAll(ps, from, st, mt).errors == st.errors
    ensures MatchAll(ps, from, st, mt).forward == st.forward
    ensures MatchAll(ps, from, st, mt).positionals == []
    ensures KeywordsEmpty(MatchAll(ps, from, st, mt).keywords)
    decreases |ps|
  {
    if ps == [] {
      NoKeywordLeft(ps, tys);
    } else {
      var next := Step(st, ps[0], from, mt, RequiredCount(ps[1..]));
      StepOwn(ps, tys, from, st, mt);
      CanonicalTail(ps);
      MatchAllOwn(ps[1..], tys[1..], from + 1, next, mt);
      assert MatchAll(ps, from, st, mt) == MatchAll(ps[1..], from + 1, next, mt);
    }
  }

  lemma {:induction false} MatchAllOwnSlots(ps: seq<Param>, tys: seq<Type>, from: nat, st: State, mt: MethodType)
    requires |ps| == |tys| && Canonical(ps) && mt.params.Typed?
    requires st.positionals == OwnPositionals(ps, tys) && st.keywords == OwnKeywords(ps, tys)
    ensures SlotsOwnTyped(tys, from, MatchAll(ps, from, st, mt).slots, |st.slots|, mt.block)
    decreases |ps|
  {
    if ps != [] {
      var next := Step(st, ps[0], from, mt, RequiredCount(ps[1..]));
      StepOwn(ps, tys, from, st, mt);
      CanonicalTail(ps);
      MatchAllOwnSlots(ps[1..], tys[1..], from + 1, next, mt);
      var r := MatchAll(ps[1..], from + 1, next, mt);
      assert MatchAll(ps, from, st, mt) == r;
    }
  }

  /**
   The type the local variable of parameter `p`, declared with type `t`, has:
   `*x` collects an `::Array[t]`, `**x` a `::Hash[::Symbol, t]`, `&b` the declared
   block's proc (with `nil` when the block is optional, `nil` alone when none is declared).
   */
  function DeclaredVarType(p: Param, t: Type, block: Option<BlockSig>): Type
  {
    match p
    case RestArg(_) => Name("::Array", [t])
    case KwRestArg(_) => Name("::Hash", [Instance("::Symbol"), t])
    case BlockArg(_) =>
      (match block
       case None => Nil
       case Some(b) => if b.optional then Union([Proc(b.fn, b.selfType), Nil]) else Proc(b.fn, b.selfType))
    case _ => t
  }

  /** Against its own signature, every parameter's local variable has the type its declaration gives it. */
  lemma OwnVarTypes(ps: seq<Param>, tys: seq<Type>, block: Option<BlockSig>)
    requires |ps| == |tys| && Canonical(ps)
    ensures forall k :: 0 <= k < |Build(ps, OwnSignature(ps, tys, block)).slots| ==>
      Build(ps, OwnSignature(ps, tys, block)).slots[k].node < |ps| &&
      VarType(Build(ps, OwnSignature(ps, tys, block)).slots[k])
        == DeclaredVarType(ps[Build(ps, OwnSignature(ps, tys, block)).slots[k].node], tys[Build(ps, OwnSignature(ps, tys, block)).slots[k].node], block)
  {
    OwnSignatureAccepted(ps, tys, block);
    var slots := Build(ps, OwnSignature(ps, tys, block)).slots;
    forall k | 0 <= k < |slots|
      ensures slots[k].node < |ps| && VarType(slots[k]) == DeclaredVarType(ps[slots[k].node], tys[slots[k].node], block)
    {
      assert SlotFor(ps[slots[k].node], slots[k]);
      assert CarriesOwnType(slots[k], tys[slots[k].node], block);
    }
  }

  /**
   Round trip: a `def` checked against the method type that declares exactly its
   own parameters gets no diagnostic, and every slot carries the declared type.
   */
  lemma OwnSignatureAccepted(ps: seq<Param>, tys: seq<Type>, block: Option<BlockSig>)
    requires |ps| == |tys| && Canonical(ps)
    ensures Build(ps, OwnSignature(ps, tys, block)).errors == []
    ensures Build(ps, OwnSignature(ps, tys, block)).forward.None?
    ensures SlotsOwnTyped(tys, 0, Build(ps, OwnSignature(ps, tys, block)).slots, 0, block)
  {
    var mt := OwnSignature(ps, tys, block);
    MatchAllOwn(ps, tys, 0, Start(mt), mt);
    MatchAllOwnSlots(ps, tys, 0, Start(mt), mt);
  }
}

=== FILE: subtyping.dfy ===
/**
 The small subtyping relation the environment needs: `untyped` on top,
 unions on either side, a literal below its back type, and nominal
 ancestry as supplied by the signature database.
 */
module Subtyping {
  import opened Wrappers
  import opened Types

  /** For each class name, the set of its ancestors (superclasses and included modules), from the signature database. */
  type Ancestry = map<string, set<string>>

  predicate Ancestor(h: Ancestry, sub: string, sup: string)
  {
    sub in h && sup in h[sub]
  }

  /** Nominal rule: the same instance type (literal locations aside), or an argument-free ancestor of it. */
  predicate NominalSub(h: Ancestry, a: Type, b: Type)
    requires a.Name?
  {
    b.Name? && (SameType(a, b) || (Ancestor(h, a.name, b.name) && b.args == []))
  }

  /** `a <: b` */
  predicate IsSubtype(h: Ancestry, a: Type, b: Type)
    decreases a, b
  {
    if b.Any? then true
    else if a.Union? then forall i | 0 <= i < |a.types| :: IsSubtype(h, a.types[i], b)
    else if b.Union? then exists i | 0 <= i < |b.types| :: IsSubtype(h, a, b.types[i])
    else match a
      case Literal(v, _) =>
        (b.Literal? && b.value == v) || (BackType(a).Some? && NominalSub(h, BackType(a).value, b))
      case Name(_, _) => NominalSub(h, a, b)
      case _ => SameType(a, b)
  }

  /** A literal is a subtype of its back type and of every ancestor of that type. */
  lemma LiteralBelowBackType(h: Ancestry, lit: Type, sup: string)
    requires lit.Literal? && BackType(lit).Some?
    ensures IsSubtype(h, lit, BackType(lit).value)
    ensures Ancestor(h, BackType(lit).value.name, sup) ==> IsSubtype(h, lit, Instance(sup))
  {
  }

  /** A literal whose value is not an Integer, String or Symbol is only below itself and `untyped`. */
  lemma OtherLiteralHasNoNominalSupertype(h: Ancestry, lit: Type, b: Type)
    requires lit.Literal? && lit.value.OtherV? && b.Name?
    ensures !IsSubtype(h, lit, b)
  {
  }

  /**
   Types that differ only in the locations of their literals are subtypes of each
   other, as Ruby's `==` on them holds: `::Array[1]` written at two places is one type.
   */
  lemma {:induction false} LocationsIgnored(h: Ancestry, a: Type, b: Type)
    requires SameType(a, b)
    ensures IsSubtype(h, a, b) && IsSubtype(h, b, a)
    decreases a
  {
    UnlocatedShape(a);
    UnlocatedShape(b);
    if a.Union? {
      forall i | 0 <= i < |a.types| ensures IsSubtype(h, a.types[i], b) && IsSubtype(h, b.types[i], a) {
        assert Unlocated(a).types[i] == Unlocated(b).types[i];
        LocationsIgnored(h, a.types[i], b.types[i]);
        BelowMemberIsBelowUnion(h, a.types[i], b.types, i);
        BelowMemberIsBelowUnion(h, b.types[i], a.types, i);
      }
    }
  }

  /** Anything below one member of a union is below the union. */
  lemma {:induction false} BelowMemberIsBelowUnion(h: Ancestry, x: Type, ts: seq<Type>, j: nat)
    requires j < |ts| && IsSubtype(h, x, ts[j])
    ensures IsSubtype(h, x, Union(ts))
  {
    if x.Union? {
      forall i | 0 <= i < |x.types| ensures IsSubtype(h, x.types[i], Union(ts)) {
        assert IsSubtype(h, x.types[i], ts[j]);
        BelowMemberIsBelowUnion(h, x.types[i], ts, j);
      }
    }
  }

  /** Every type is a subtype of itself. */
  lemma {:induction false} Reflexive(h: Ancestry, t: Type)
    ensures IsSubtype(h, t, t)
  {
    match t
    case Union(ts) =>
      forall i | 0 <= i < |ts| ensures IsSubtype(h, ts[i], t) {
        Reflexive(h, ts[i]);
        BelowMemberIsBelowUnion(h, ts[i], ts, i);
      }
    case _ =>
  }

  /** A union is below `b` exactly when each of its members is. */
  lemma UnionBelow(h: Ancestry, ts: seq<Type>, b: Type)
    ensures IsSubtype(h, Union(ts), b) <==> forall i | 0 <= i < |ts| :: IsSubtype(h, ts[i], b)
  {
  }

  /** The signature database lists ancestors transitively: an ancestor's ancestors are ancestors too. */
  ghost predicate TransitiveAncestry(h: Ancestry)
  {
    forall a, b, c :: Ancestor(h, a, b) && Ancestor(h, b, c) ==> Ancestor(h, a, c)
  }

  /** Subtyping is transitive whenever the ancestry is. */
  lemma {:induction false} Transitive(h: Ancestry, a: Type, b: Type, c: Type)
    requires TransitiveAncestry(h)
    requires IsSubtype(h, a, b) && IsSubtype(h, b, c)
    ensures IsSubtype(h, a, c)
    decreases a, b, c
  {
    if c.Any? {
    } else if a.Union? {
      forall i | 0 <= i < |a.types| ensures IsSubtype(h, a.types[i], c) {
        Transitive(h, a.types[i], b, c);
      }
    } else if b.Union? {
      var i :| 0 <= i < |b.types| && IsSubtype(h, a, b.types[i]);
      Transitive(h, a, b.types[i], c);
    } else if c.Union? {
      var k :| 0 <= k < |c.types| && IsSubtype(h, b, c.types[k]);
      Transitive(h, a, b, c.types[k]);
      BelowMemberIsBelowUnion(h, a, c.types, k);
    } else {
      UnlocatedShape(a);
      UnlocatedShape(b);
      UnlocatedShape(c);
    }
  }

  /**
   `1 <: Integer` and `Integer | String <: Integer | String | Symbol` hold under any
   ancestry; `Integer | String <: Integer` fails unless String inherits from Integer.
   */
  lemma LiteralAndUnionExamples(h: Ancestry)
    requires !Ancestor(h, "::String", "::Integer")
    ensures IsSubtype(h, Literal(IntV(1), None), Instance("::Integer"))
    ensures IsSubtype(h, Union([Instance("::Integer"), Instance("::String")]),
                         Union([Instance("::Integer"), Instance("::String"), Instance("::Symbol")]))
    ensures !IsSubtype(h, Union([Instance("::Integer"), Instance("::String")]), Instance("::Integer"))
  {
    var i, s, y := Instance("::Integer"), Instance("::String"), Instance("::Symbol");
    Reflexive(h, i);
    Reflexive(h, s);
    BelowMemberIsBelowUnion(h, i, [i, s, y], 0);
    BelowMemberIsBelowUnion(h, s, [i, s, y], 1);
    assert [i, s][1] == s;
    assert !IsSubtype(h, s, i);
  }

  /** `::Array[1]` written at two places: each is below the other, under any ancestry. */
  lemma NestedLiteralLocations(h: Ancestry)
    ensures var a1, a2 := Name("::Array", [Literal(IntV(1), Some(Loc(1, 0)))]), Name("::Array", [Literal(IntV(1), Some(Loc(2, 0)))]);
      IsSubtype(h, a1, a2) && IsSubtype(h, a2, a1)
  {
    var a1, a2 := Name("::Array", [Literal(IntV(1), Some(Loc(1, 0)))]), Name("::Array", [Literal(IntV(1), Some(Loc(2, 0)))]);
    assert Unlocated(a1).args == [Literal(IntV(1), None)] == Unlocated(a2).args;
    LocationsIgnored(h, a1, a2);
  }
}

=== FILE: type_env.dfy ===
/**
 The type environment of the inference walker: the declared types of instance
 variables, global variables and constants at one point of a method body.
 The source's `set` updates its receiver in place; here an environment is a
 value, and every operation that changes it returns the new environment, which
 the caller passes on explicitly.
 */
module TypeEnvironment {
  import opened Wrappers
  import opened Types
  import opened Subtyping

  /** The three kinds of name the environment tracks: `@x`, `$x` and constants. */
  datatype Key = IVar(name: string) | GVar(name: string) | Const(name: string)

  /**
   `annotations` holds the types installed by `set`, `with_annotations` and `build`.
   `constDecls` stands for the constant resolver (the declared type of each constant
   the signature database knows) and `ancestry` for the subtyping checker.
   */
  datatype TypeEnv = TypeEnv(annotations: map<Key, Type>, constDecls: map<string, Type>, ancestry: Ancestry)

  /** What `get` yields: the type, and whether the fallback block was invoked (with no error). */
  datatype Lookup = Lookup(ty: Type, fallback: bool)

  /** The failure the subtyping checker reports for `sub <: sup`. */
  datatype Failure = Failure(sub: Type, sup: Type)

  /**
   What `assign` yields: the type of the assignment, whether the block was invoked
   with `nil` because nothing is declared (`fallback`), and the failure passed to the
   block when the check fails. With neither, the block does not run.
   */
  datatype Assigned = Assigned(ty: Type, fallback: bool, failure: Option<Failure>)

  /** Whether `assign` runs its block at all: with `nil`, or with a failure. */
  predicate Yields(a: Assigned)
  {
    a.fallback || a.failure.Some?
  }

  /** A conflict reported by `with_annotations`: the key and the failure. */
  datatype Conflict = Conflict(key: Key, failure: Failure)

  /** What `with_annotations` yields: the derived environment and the conflicts, in override order. */
  datatype Annotated = Annotated(env: TypeEnv, conflicts: seq<Conflict>)

  /** The annotations `TypeEnv.build` reads; only the ivar and constant ones reach the environment. */
  datatype Annotation =
    | VarType(name: string, ty: Type)
    | IvarType(name: string, ty: Type)
    | ConstType(name: string, ty: Type)
    | ReturnType(ty: Type)
    | BlockType(ty: Type)
    | Dynamic(names: seq<string>)

  /** `TypeEnv.new`: nothing is annotated yet. */
  function Empty(constDecls: map<string, Type>, ancestry: Ancestry): (r: TypeEnv)
    ensures forall key :: Get(r, key) == Lookup(Any, true)
    ensures r.constDecls == constDecls && r.ancestry == ancestry
  {
    TypeEnv(map[], constDecls, ancestry)
  }

  /**
   `get`: the installed type; an unannotated key reads as `untyped` and invokes the
   fallback. Only installed types are read: the constant resolver is not consulted.
   */
  function Get(env: TypeEnv, key: Key): (r: Lookup)
    ensures r.fallback <==> key !in env.annotations
    ensures !r.fallback ==> r.ty == env.annotations[key]
    ensures r.fallback ==> r.ty == Any
  {
    if key in env.annotations then Lookup(env.annotations[key], false) else Lookup(Any, true)
  }

  /** `set`: installs `t` for `key`, whatever was there; every other key reads as before. */
  function Set(env: TypeEnv, key: Key, t: Type): (r: TypeEnv)
    ensures Get(r, key) == Lookup(t, false)
    ensures forall k :: k != key ==> Get(r, k) == Get(env, k)
    ensures r.constDecls == env.constDecls && r.ancestry == env.ancestry
  {
    env.(annotations := env.annotations[key := t])
  }

  /** The type an assignment or override is checked against: the installed one, else the resolver's for a constant. */
  function Declared(env: TypeEnv, key: Key): (r: Option<Type>)
    ensures key in env.annotations ==> r == Some(env.annotations[key])
    ensures key !in env.annotations && !key.Const? ==> r == None
    ensures key !in env.annotations && key.Const? ==>
      r == (if key.name in env.constDecls then Some(env.constDecls[key.name]) else None)
  {
    if key in env.annotations then Some(env.annotations[key])
    else if key.Const? && key.name in env.constDecls then Some(env.constDecls[key.name])
    else None
  }

  /** The subtyping check `sub <: sup`, with its failure. */
  function Check(env: TypeEnv, sub: Type, sup: Type): (r: Option<Failure>)
    ensures r.None? <==> IsSubtype(env.ancestry, sub, sup)
    ensures r.Some? ==> r.value == Failure(sub, sup)
  {
    if IsSubtype(env.ancestry, sub, sup) then None else Some(Failure(sub, sup))
  }

  /**
   `assign`: the declared type widens the assignment and the incoming type is checked
   against it; with nothing declared the result is `untyped` and nothing is reported.
   */
  function Assign(env: TypeEnv, key: Key, t: Type): (r: Assigned)
    ensures r.fallback <==> Declared(env, key).None?
    ensures r.fallback ==> r.ty == Any && r.failure.None?
    ensures Declared(env, key).Some? ==> r.ty == Declared(env, key).value
    ensures r.failure.Some? <==> Declared(env, key).Some? && !IsSubtype(env.ancestry, t, Declared(env, key).value)
    ensures r.failure.Some? ==> r.failure.value == Failure(t, r.ty)
  {
    match Declared(env, key)
    case None => Assigned(Any, true, None)
    case Some(d) => Assigned(d, false, Check(env, t, d))
  }

  /** Whatever `assign` returns, the incoming type fits it unless a failure was reported. */
  lemma AssignWidens(env: TypeEnv, key: Key, t: Type)
    ensures Assign(env, key, t).failure.None? ==> IsSubtype(env.ancestry, t, Assign(env, key, t).ty)
    ensures Assign(env, key, t).failure.Some? ==> !IsSubtype(env.ancestry, t, Assign(env, key, t).ty)
  {
  }

  /** Assigning a type the declaration already fits is silent and keeps the declaration. */
  lemma AssignDeclaredIsSilent(env: TypeEnv, key: Key)
    requires Declared(env, key).Some?
    ensures Assign(env, key, Declared(env, key).value) == Assigned(Declared(env, key).value, false, None)
    ensures !Yields(Assign(env, key, Declared(env, key).value))
  {
    Reflexive(env.ancestry, Declared(env, key).value);
  }

  /** The conflict one override `(key, t)` raises against `env`, if any. */
  function ConflictOf(env: TypeEnv, ov: (Key, Type)): Option<Conflict>
  {
    match Declared(env, ov.0)
    case None => None
    case Some(d) => if IsSubtype(env.ancestry, ov.1, d) then None else Some(Conflict(ov.0, Failure(ov.1, d)))
  }

  /** Keys of an override list; the source passes hashes, so no key repeats. */
  predicate DistinctKeys(ovs: seq<(Key, Type)>)
  {
    forall i, j :: 0 <= i < j < |ovs| ==> ovs[i].0 != ovs[j].0
  }

  /** Installs every override, later entries last. */
  function Install(env: TypeEnv, ovs: seq<(Key, Type)>): (r: TypeEnv)
    ensures r.constDecls == env.constDecls && r.ancestry == env.ancestry
    decreases |ovs|
  {
    if ovs == [] then env else Install(Set(env, ovs[0].0, ovs[0].1), ovs[1..])
  }

  /** The conflicts of the overrides against the original environment, in order. */
  function Conflicts(env: TypeEnv, ovs: seq<(Key, Type)>): seq<Conflict>
    decreases |ovs|
  {
    if ovs == [] then []
    else
      (match ConflictOf(env, ovs[0]) case None => [] case Some(c) => [c]) + Conflicts(env, ovs[1..])
  }

  /**
   `with_annotations`: installs every override regardless, and reports each override
   whose key has a declared type the override does not fit.
   */
  function WithAnnotations(env: TypeEnv, ovs: seq<(Key, Type)>): (r: Annotated)
    requires DistinctKeys(ovs)
    ensures forall i :: 0 <= i < |ovs| ==> Get(r.env, ovs[i].0) == Lookup(ovs[i].1, false)
    ensures forall k :: (forall i :: 0 <= i < |ovs| ==> ovs[i].0 != k) ==> Get(r.env, k) == Get(env, k)
    ensures forall c :: c in r.conflicts <==> exists i :: 0 <= i < |ovs| && ConflictOf(env, ovs[i]) == Some(c)
    ensures r.env.constDecls == env.constDecls && r.env.ancestry == env.ancestry
  {
    InstallReads(env, ovs);
    ConflictsListed(env, ovs);
    Annotated(Install(env, ovs), Conflicts(env, ovs))
  }

  lemma {:induction false} InstallReads(env: TypeEnv, ovs: seq<(Key, Type)>)
    requires DistinctKeys(ovs)
    ensures forall i :: 0 <= i < |ovs| ==> Get(Install(env, ovs), ovs[i].0) == Lookup(ovs[i].1, false)
    ensures forall k :: (forall i :: 0 <= i < |ovs| ==> ovs[i].0 != k) ==> Get(Install(env, ovs), k) == Get(env, k)
    decreases |ovs|
  {
    if ovs != [] {
      var next := Set(env, ovs[0].0, ovs[0].1);
      var tail := ovs[1..];
      assert forall i :: 0 <= i < |tail| ==> tail[i] == ovs[i + 1];
      InstallReads(next, tail);
      assert Install(env, ovs) == Install(next, tail);
      forall k | (forall i :: 0 <= i < |ovs| ==> ovs[i].0 != k)
        ensures Get(Install(env, ovs), k) == Get(env, k)
      {
        assert ovs[0].0 != k;
      }
      forall i | 0 <= i < |ovs|
        ensures Get(Install(env, ovs), ovs[i].0) == Lookup(ovs[i].1, false)
      {
        if i == 0 {
          assert forall j :: 0 <= j < |tail| ==> tail[j].0 != ovs[0].0;
        } else {
          assert ovs[i] == tail[i - 1];
        }
      }
    }
  }

  lemma {:induction false} ConflictsListed(env: TypeEnv, ovs: seq<(Key, Type)>)
    ensures forall c :: c in Conflicts(env, ovs) <==> exists i :: 0 <= i < |ovs| && ConflictOf(env, ovs[i]) == Some(c)
    decreases |ovs|
  {
    if ovs != [] {
      var tail := ovs[1..];
      ConflictsListed(env, tail);
      forall c ensures c in Conflicts(env, ovs) <==> exists i :: 0 <= i < |ovs| && ConflictOf(env, ovs[i]) == Some(c)
      {
        if c in Conflicts(env, tail) {
          var i :| 0 <= i < |tail| && ConflictOf(env, tail[i]) == Some(c);
          assert ConflictOf(env, ovs[i + 1]) == Some(c);
        }
        if exists i :: 0 <= i < |ovs| && ConflictOf(env, ovs[i]) == Some(c) {
          var i :| 0 <= i < |ovs| && ConflictOf(env, ovs[i]) == Some(c);
          if i > 0 {
            assert ConflictOf(env, tail[i - 1]) == Some(c);
          }
        }
      }
    }
  }

  /** A reported conflict names an overridden key whose declared type the override does not fit. */
  lemma ConflictMeansMismatch(env: TypeEnv, ovs: seq<(Key, Type)>, c: Conflict)
    requires DistinctKeys(ovs) && c in WithAnnotations(env, ovs).conflicts
    ensures exists i :: 0 <= i < |ovs| && ovs[i].0 == c.key && c.failure.sub == ovs[i].1
    ensures Declared(env, c.key) == Some(c.failure.sup)
    ensures !IsSubtype(env.ancestry, c.failure.sub, c.failure.sup)
  {
    var i :| 0 <= i < |ovs| && ConflictOf(env, ovs[i]) == Some(c);
  }

  /** The type the annotations give `key`: the last ivar or constant annotation of that name. */
  function AnnotatedType(anns: seq<Annotation>, key: Key): Option<Type>
    decreases |anns|
  {
    if anns == [] then None
    else
      var last := anns[|anns| - 1];
      if (key.IVar? && last.IvarType? && last.name == key.name) || (key.Const? && last.ConstType? && last.name == key.name)
      then Some(last.ty)
      else AnnotatedType(anns[..|anns| - 1], key)
  }

  /** One annotation's effect on the environment: only ivar and constant annotations are installed. */
  function Apply(env: TypeEnv, a: Annotation): (r: TypeEnv)
    ensures forall g :: Get(r, GVar(g)) == Get(env, GVar(g))
    ensures r.constDecls == env.constDecls && r.ancestry == env.ancestry
  {
    match a
    case IvarType(x, t) => Set(env, IVar(x), t)
    case ConstType(x, t) => Set(env, Const(x), t)
    case _ => env
  }

  /** Installs the annotations in order, so a later one of the same name wins. */
  function Seed(env: TypeEnv, anns: seq<Annotation>): (r: TypeEnv)
    ensures r.constDecls == env.constDecls && r.ancestry == env.ancestry
    decreases |anns|
  {
    if anns == [] then env else Apply(Seed(env, anns[..|anns| - 1]), anns[|anns| - 1])
  }

  /** The global variables the signature database declares. */
  function GlobalsOf(gvarDecls: map<string, Type>): map<Key, Type>
  {
    map k | k in (set g | g in gvarDecls :: GVar(g)) :: gvarDecls[k.name]
  }

  /**
   `TypeEnv.build`: ivar and constant annotations are installed verbatim, global
   variables take their declared types, and nothing else is annotated.
   */
  function Build(anns: seq<Annotation>, gvarDecls: map<string, Type>, constDecls: map<string, Type>, ancestry: Ancestry): (r: TypeEnv)
    ensures forall x :: Get(r, IVar(x)) == (match AnnotatedType(anns, IVar(x)) case Some(t) => Lookup(t, false) case None => Lookup(Any, true))
    ensures forall x :: Get(r, Const(x)) == (match AnnotatedType(anns, Const(x)) case Some(t) => Lookup(t, false) case None => Lookup(Any, true))
    ensures forall g :: Get(r, GVar(g)) == (if g in gvarDecls then Lookup(gvarDecls[g], false) else Lookup(Any, true))
    ensures r.constDecls == constDecls && r.ancestry == ancestry
  {
    var base := TypeEnv(GlobalsOf(gvarDecls), constDecls, ancestry);
    assert forall g :: GVar(g) in base.annotations <==> g in gvarDecls;
    SeedFromGlobals(base, anns);
    Seed(base, anns)
  }

  /** Seeding over the declared globals: annotated keys read their annotation, globals their declaration. */
  lemma SeedFromGlobals(base: TypeEnv, anns: seq<Annotation>)
    requires forall k :: k in base.annotations ==> k.GVar?
    ensures forall k: Key :: !k.GVar? ==> Get(Seed(base, anns), k) == (match AnnotatedType(anns, k) case Some(t) => Lookup(t, false) case None => Lookup(Any, true))
    ensures forall g :: Get(Seed(base, anns), GVar(g)) == Get(base, GVar(g))
  {
    forall k: Key | !k.GVar?
      ensures Get(Seed(base, anns), k) == (match AnnotatedType(anns, k) case Some(t) => Lookup(t, false) case None => Lookup(Any, true))
    {
      SeedReads(base, anns, k);
    }
    forall g ensures Get(Seed(base, anns), GVar(g)) == Get(base, GVar(g)) {
      SeedKeepsGlobals(base, anns, g);
    }
  }

  /** Seeding reads, for an ivar or constant key, the last annotation of that name, else what was there. */
  lemma {:induction false} SeedReads(env: TypeEnv, anns: seq<Annotation>, key: Key)
    requires !key.GVar?
    ensures Get(Seed(env, anns), key) == (match AnnotatedType(anns, key) case Some(t) => Lookup(t, false) case None => Get(env, key))
    decreases |anns|
  {
    if anns != [] {
      SeedReads(env, anns[..|anns| - 1], key);
    }
  }

  /** Annotations never touch global variables. */
  lemma {:induction false} SeedKeepsGlobals(env: TypeEnv, anns: seq<Annotation>, g: string)
    ensures Get(Seed(env, anns), GVar(g)) == Get(env, GVar(g))
    decreases |anns|
  {
    if anns != [] {
      SeedKeepsGlobals(env, anns[..|anns| - 1], g);
    }
  }

  // ---- The scenarios of the environment's tests ----

  const Integer := Instance("::Integer")
  const Numeric := Instance("::Numeric")
  const Regexp := Instance("::Regexp")

  /** The part of the core library the tests lean on: Integer is a Numeric. */
  const CoreAncestry: Ancestry := map["::Integer" := {"::Numeric"}]

  /** Without an annotation, `get` and `assign` both give `untyped` and invoke the block with `nil`. */
  lemma VariableWithoutAnnotation(key: Key, t: Type)
    requires !key.Const?
    ensures Get(Empty(map[], CoreAncestry), key) == Lookup(Any, true)
    ensures Assign(Empty(map[], CoreAncestry), key, t) == Assigned(Any, true, None)
  {
  }

  /**
   A variable declared `untyped` is not an undeclared one: both assignments give
   `untyped` and report no failure, but only the undeclared one runs the block.
   */
  lemma DeclaredUntypedDoesNotYield(key: Key, t: Type)
    ensures Assign(Empty(map[], CoreAncestry), key, t) == Assigned(Any, true, None)
    ensures Assign(Set(Empty(map[], CoreAncestry), key, Any), key, t) == Assigned(Any, false, None)
    ensures !Yields(Assign(Set(Empty(map[], CoreAncestry), key, Any), key, t))
  {
  }

  /** With `Numeric` set, `get` returns it; assigning Integer is silent and assigning String fails; both return Numeric. */
  lemma VariableWithAnnotation(key: Key)
    ensures var env := Set(Empty(map[], CoreAncestry), key, Numeric);
      && Get(env, key) == Lookup(Numeric, false)
      && Assign(env, key, Integer) == Assigned(Numeric, false, None)
      && Assign(env, key, Str) == Assigned(Numeric, false, Some(Failure(Str, Numeric)))
  {
    var env := Set(Empty(map[], CoreAncestry), key, Numeric);
    assert Ancestor(CoreAncestry, "::Integer", "::Numeric");
    assert !IsSubtype(CoreAncestry, Str, Numeric);
  }

  /** A constant the resolver declares still reads as `untyped` until it is set. */
  lemma ConstantWithoutAnnotation()
    ensures Get(Empty(map["Regexp" := Singleton("::Regexp")], CoreAncestry), Const("Regexp")) == Lookup(Any, true)
  {
  }

  /**
   A constant the resolver declares but nothing installed reads as `untyped`, yet an
   assignment to it is checked against the resolver's declaration.
   */
  lemma ResolverConstantAsymmetry(env: TypeEnv, key: Key, t: Type)
    requires key.Const? && key !in env.annotations && key.name in env.constDecls
    ensures Get(env, key) == Lookup(Any, true)
    ensures Assign(env, key, t).ty == env.constDecls[key.name]
    ensures Assign(env, key, t).failure.Some? <==> !IsSubtype(env.ancestry, t, env.constDecls[key.name])
  {
  }

  /** A single override: installed, and reported exactly when it conflicts. */
  lemma WithOneAnnotation(env: TypeEnv, ov: (Key, Type))
    ensures WithAnnotations(env, [ov])
         == Annotated(Set(env, ov.0, ov.1), match ConflictOf(env, ov) case None => [] case Some(c) => [c])
  {
    assert [ov][1..] == [];
    assert Install(env, [ov]) == Install(Set(env, ov.0, ov.1), []);
    assert Conflicts(env, [ov]) == (match ConflictOf(env, ov) case None => [] case Some(c) => [c]) + Conflicts(env, []);
  }

  /** The environment of the override tests: the key is set to Integer | String. */
  function UnionEnv(key: Key): TypeEnv
  {
    Set(Empty(map[], CoreAncestry), key, Union([Integer, Str]))
  }

  /** Overriding Integer | String with String is silent. */
  lemma OverrideWithSubtype(key: Key)
    ensures WithAnnotations(UnionEnv(key), [(key, Str)]) == Annotated(Set(UnionEnv(key), key, Str), [])
  {
    var u := Union([Integer, Str]);
    assert IsSubtype(CoreAncestry, Str, u.types[1]);
    assert ConflictOf(UnionEnv(key), (key, Str)) == None;
    WithOneAnnotation(UnionEnv(key), (key, Str));
  }

  /** Overriding Integer | String with Regexp installs Regexp and reports the key. */
  lemma OverrideWithUnrelated(key: Key)
    ensures WithAnnotations(UnionEnv(key), [(key, Regexp)])
         == Annotated(Set(UnionEnv(key), key, Regexp), [Conflict(key, Failure(Regexp, Union([Integer, Str])))])
  {
    var u := Union([Integer, Str]);
    assert !IsSubtype(CoreAncestry, Regexp, u.types[0]);
    assert !IsSubtype(CoreAncestry, Regexp, u.types[1]);
    assert ConflictOf(UnionEnv(key), (key, Regexp)) == Some(Conflict(key, Failure(Regexp, u)));
    WithOneAnnotation(UnionEnv(key), (key, Regexp));
  }

  /** Overriding a variable with no declared type is silent. */
  lemma OverrideUndeclared(key: Key, other: Key)
    requires key != other
    ensures WithAnnotations(UnionEnv(key), [(other, Str)]) == Annotated(Set(UnionEnv(key), other, Str), [])
  {
    assert ConflictOf(UnionEnv(key), (other, Str)) == None;
    WithOneAnnotation(UnionEnv(key), (other, Str));
  }

  /** A constant never set is still checked against its resolver declaration: `String` overridden by Regexp is reported. */
  lemma OverrideDeclaredConstant()
    ensures var env := Empty(map["String" := Singleton("::String")], CoreAncestry);
      WithAnnotations(env, [(Const("String"), Regexp)]).conflicts == [Conflict(Const("String"), Failure(Regexp, Singleton("::String")))]
  {
    var env := Empty(map["String" := Singleton("::String")], CoreAncestry);
    assert Conflicts(env, [(Const("String"), Regexp)]) == [Conflict(Const("String"), Failure(Regexp, Singleton("::String")))] + Conflicts(env, []);
  }

  /** The annotations of the `build` test. */
  const TestAnnotations: seq<Annotation> :=
    [VarType("x", Instance("::X")), IvarType("@y", Instance("::Y")), ConstType("Foo", Integer),
     ReturnType(Instance("::Z")), BlockType(Instance("::A")), Dynamic(["path"])]

  lemma TestAnnotationTypes()
    ensures AnnotatedType(TestAnnotations, IVar("@y")) == Some(Instance("::Y"))
    ensures AnnotatedType(TestAnnotations, Const("Foo")) == Some(Integer)
    ensures AnnotatedType(TestAnnotations, IVar("x")) == None
  {
    var a := TestAnnotations;
    assert a[..|a| - 1] == a[..5] && a[..5][..4] == a[..4] && a[..4][..3] == a[..3];
    assert a[..3][..2] == a[..2] && a[..2][..1] == a[..1] && a[..1][..0] == [];
    forall k: Key | k in {IVar("@y"), Const("Foo"), IVar("x")}
      ensures AnnotatedType(a, k) == AnnotatedType(a[..3], k)
    {
      assert AnnotatedType(a, k) == AnnotatedType(a[..5], k);
      assert AnnotatedType(a[..5], k) == AnnotatedType(a[..4], k);
    }
    assert AnnotatedType(a[..3], Const("Foo")) == Some(Integer);
    assert AnnotatedType(a[..3], IVar("@y")) == AnnotatedType(a[..2], IVar("@y"));
    assert AnnotatedType(a[..3], IVar("x")) == AnnotatedType(a[..2], IVar("x"));
    assert AnnotatedType(a[..2], IVar("x")) == AnnotatedType(a[..1], IVar("x"));
    assert AnnotatedType(a[..1], IVar("x")) == AnnotatedType([], IVar("x"));
  }

  /** `build`: `@y` and `Foo` come from their annotations, `$foo` from its declaration, and a local `x` is not tracked. */
  lemma BuildFromAnnotations()
    ensures var env := Build(TestAnnotations, map["$foo" := Str], map[], CoreAncestry);
      && Get(env, IVar("@y")) == Lookup(Instance("::Y"), false)
      && Get(env, Const("Foo")) == Lookup(Integer, false)
      && Get(env, GVar("$foo")) == Lookup(Str, false)
      && Get(env, IVar("x")) == Lookup(Any, true)
  {
    TestAnnotationTypes();
  }
}

=== FILE: types.dfy ===
/**
 The type values of the checker: a closed sum of the shapes the inference
 core builds, with the operations of `Steep::AST::Types::Literal`
 (equality, hash, substitution, free variables, level, back type).
 */
module Types {
  import opened Wrappers

  /** A source position; literals carry one but it never takes part in comparison. */
  datatype Loc = Loc(line: nat, column: nat)

  /** The Ruby value a literal type stands for. `OtherV` is any value that is not an Integer, String or Symbol. */
  datatype LitVal = IntV(i: int) | StrV(s: string) | SymV(sym: string) | OtherV(repr: string)

  datatype Type =
    | Any                                   // `untyped`
    | Nil                                   // `nil`
    | Void                                  // `void`
    | Self                                  // `self`
    | Var(id: string)                       // a type variable
    | Name(name: string, args: seq<Type>)   // an instance type `::C[args]`
    | Singleton(name: string)               // `singleton(::C)`
    | Union(types: seq<Type>)               // `A | B | ...`
    | Literal(value: LitVal, loc: Option<Loc>)
    | Proc(fn: Fn, selfType: Option<Type>)  // `^(params) [self: T] -> ret`

  /** A function shape: positional parameter types and a return type. */
  datatype Fn = Fn(params: seq<Type>, ret: Type)

  /** The nominal instance type `::C` without type arguments. */
  function Instance(name: string): Type
  {
    Name(name, [])
  }

  /** `::String`, the type the typing tests record. */
  const Str := Instance("::String")

  /** The type with every literal's location dropped; locations never take part in comparing types. */
  function Unlocated(t: Type): Type
  {
    match t
    case Name(n, args) => Name(n, seq(|args|, i requires 0 <= i < |args| => Unlocated(args[i])))
    case Union(ts) => Union(seq(|ts|, i requires 0 <= i < |ts| => Unlocated(ts[i])))
    case Literal(v, _) => Literal(v, None)
    case Proc(fn, st) =>
      Proc(Fn(seq(|fn.params|, i requires 0 <= i < |fn.params| => Unlocated(fn.params[i])), Unlocated(fn.ret)),
           match st case None => None case Some(x) => Some(Unlocated(x)))
    case _ => t
  }

  /** Ruby's `==` on types: structural equality in which the locations of literals are ignored. */
  predicate SameType(a: Type, b: Type)
  {
    Unlocated(a) == Unlocated(b)
  }

  /** `Literal#==` (and `eql?`): the other type is a literal with an equal value; the location is not consulted. */
  predicate LiteralEquals(self: Type, other: Type)
    requires self.Literal?
  {
    other.Literal? && other.value == self.value
  }

  /** A per-class hash code: every value of one constructor shares it. */
  function ClassHash(t: Type): nat
  {
    match t
    case Any => 0
    case Nil => 1
    case Void => 2
    case Self => 3
    case Var(_) => 4
    case Name(_, _) => 5
    case Singleton(_) => 6
    case Union(_) => 7
    case Literal(_, _) => 8
    case Proc(_, _) => 9
  }

  /** `Literal#hash` returns the hash of the class, not of the value. */
  function LiteralHash(self: Type): nat
    requires self.Literal?
  {
    ClassHash(self)
  }

  /** `Literal#level` */
  function LiteralLevel(self: Type): seq<nat>
    requires self.Literal?
  {
    [0]
  }

  /**
   `Literal#back_type`: the nominal type of the literal's value kind.
   `None` is the source's `raise` for a value that is neither Integer, String nor Symbol.
   */
  function BackType(self: Type): (r: Option<Type>)
    requires self.Literal?
    ensures r.Some? <==> !self.value.OtherV?
    ensures r.Some? ==> r.value.Name? && r.value.args == []
    ensures self.value.IntV? ==> r == Some(Instance("::Integer"))
    ensures self.value.StrV? ==> r == Some(Instance("::String"))
    ensures self.value.SymV? ==> r == Some(Instance("::Symbol"))
  {
    match self.value
    case IntV(_) => Some(Instance("::Integer"))
    case StrV(_) => Some(Instance("::String"))
    case SymV(_) => Some(Instance("::Symbol"))
    case OtherV(_) => None
  }

  /**
   `Literal#with_location` as written: it calls the constructor with `location:` alone,
   but the constructor's `value:` keyword has no default, so Ruby raises an
   `ArgumentError` on every call. The error is modelled as its message.
   */
  function WithLocationAsWritten(self: Type, loc: Loc): Result<Type, string>
    requires self.Literal?
  {
    Err("missing keyword: :value")
  }

  /** `with_location` as evidently intended: the same value, now at `loc`. */
  function WithLocation(self: Type, loc: Loc): (r: Type)
    requires self.Literal?
    ensures r.Literal? && r.loc == Some(loc)
    ensures LiteralEquals(r, self) && LiteralEquals(self, r)
    ensures LiteralHash(r) == LiteralHash(self) && BackType(r) == BackType(self)
  {
    Literal(self.value, Some(loc))
  }

  /** The written `with_location` never yields the relocated literal: for every literal and location it raises instead. */
  lemma WithLocationAsWrittenRaises(self: Type, loc: Loc)
    requires self.Literal?
    ensures WithLocationAsWritten(self, loc).Err?
    ensures WithLocationAsWritten(self, loc) != Ok(WithLocation(self, loc))
  {
  }

  /** The variables occurring in a type. */
  function FreeVars(t: Type): set<string>
  {
    match t
    case Var(id) => {id}
    case Name(_, args) => set i, x | 0 <= i < |args| && x in FreeVars(args[i]) :: x
    case Union(ts) => set i, x | 0 <= i < |ts| && x in FreeVars(ts[i]) :: x
    case Proc(fn, st) =>
      (set i, x | 0 <= i < |fn.params| && x in FreeVars(fn.params[i]) :: x)
      + FreeVars(fn.ret)
      + (match st case None => {} case Some(s) => FreeVars(s))
    case _ => {}
  }

  /** Replaces every variable in the domain of `s` by its image; everything else is rebuilt unchanged. */
  function Subst(t: Type, s: map<string, Type>): Type
  {
    match t
    case Var(id) => if id in s then s[id] else t
    case Name(n, args) => Name(n, seq(|args|, i requires 0 <= i < |args| => Subst(args[i], s)))
    case Union(ts) => Union(seq(|ts|, i requires 0 <= i < |ts| => Subst(ts[i], s)))
    case Proc(fn, st) =>
      Proc(Fn(seq(|fn.params|, i requires 0 <= i < |fn.params| => Subst(fn.params[i], s)), Subst(fn.ret, s)),
           match st case None => None case Some(x) => Some(Subst(x, s)))
    case _ => t
  }

  /** Literal equality is an equivalence on literals that ignores locations, and equal literals hash alike. */
  lemma LiteralEqualityLaws(a: Type, b: Type, c: Type)
    requires a.Literal? && b.Literal? && c.Literal?
    ensures LiteralEquals(a, a)
    ensures LiteralEquals(a, b) <==> a.value == b.value
    ensures LiteralEquals(a, b) <==> LiteralEquals(b, a)
    ensures LiteralEquals(a, b) && LiteralEquals(b, c) ==> LiteralEquals(a, c)
    ensures LiteralEquals(Literal(a.value, None), a)
    ensures LiteralEquals(a, b) ==> LiteralHash(a) == LiteralHash(b)
    ensures LiteralHash(a) == LiteralHash(b)
  {
  }

  /** Erasing locations keeps a type's shape: its constructor, its name and the number of its members. */
  lemma UnlocatedShape(t: Type)
    ensures Unlocated(t).Any? == t.Any? && Unlocated(t).Union? == t.Union? && Unlocated(t).Literal? == t.Literal?
    ensures Unlocated(t).Name? == t.Name? && (t.Name? ==> Unlocated(t).name == t.name && |Unlocated(t).args| == |t.args|)
    ensures t.Union? ==> |Unlocated(t).types| == |t.types|
    ensures t.Literal? ==> Unlocated(t).value == t.value
  {
  }

  /** On literals, `SameType` is exactly `Literal#==`: the value decides, never the location. */
  lemma SameTypeIsLiteralEquality(a: Type, b: Type)
    requires a.Literal?
    ensures SameType(a, b) <==> LiteralEquals(a, b)
    ensures SameType(a, Literal(a.value, None)) && SameType(a, WithLocation(a, Loc(0, 0)))
  {
    UnlocatedShape(b);
  }

  /** Only a literal can equal a literal. */
  lemma LiteralNeverEqualsOtherShapes(a: Type, other: Type)
    requires a.Literal? && !other.Literal?
    ensures !LiteralEquals(a, other)
  {
  }

  /** A literal has no variables, so substitution returns it unchanged; its level is `[0]`. */
  lemma LiteralIsInert(self: Type, s: map<string, Type>)
    requires self.Literal?
    ensures FreeVars(self) == {}
    ensures Subst(self, s) == self
    ensures LiteralLevel(self) == [0]
  {
  }

  /** Substituting `u` for `id` leaves only the other variables of `t` and the variables of `u`. */
  lemma {:induction false} SubstFreeVars(t: Type, id: string, u: Type)
    ensures FreeVars(Subst(t, map[id := u])) <= (FreeVars(t) - {id}) + FreeVars(u)
  {
    var m := map[id := u];
    var bound := (FreeVars(t) - {id}) + FreeVars(u);
    match t
    case Var(x) =>
    case Name(n, args) =>
      var r := Subst(t, m);
      forall x | x in FreeVars(r) ensures x in bound {
        var i :| 0 <= i < |r.args| && x in FreeVars(r.args[i]);
        SubstFreeVars(args[i], id, u);
        assert FreeVars(args[i]) <= FreeVars(t);
      }
    case Union(ts) =>
      var r := Subst(t, m);
      forall x | x in FreeVars(r) ensures x in bound {
        var i :| 0 <= i < |r.types| && x in FreeVars(r.types[i]);
        SubstFreeVars(ts[i], id, u);
        assert FreeVars(ts[i]) <= FreeVars(t);
      }
    case Proc(fn, st) =>
      var r := Subst(t, m);
      SubstFreeVars(fn.ret, id, u);
      if st.Some? {
        SubstFreeVars(st.value, id, u);
      }
      forall x | x in FreeVars(r) ensures x in bound {
        if x in FreeVars(r.fn.ret) {
        } else if r.selfType.Some? && x in FreeVars(r.selfType.value) {
        } else {
          var i :| 0 <= i < |r.fn.params| && x in FreeVars(r.fn.params[i]);
          SubstFreeVars(fn.params[i], id, u);
          assert FreeVars(fn.params[i]) <= FreeVars(t);
        }
      }
    case _ =>
  }

  /** After substituting `u` for `id`, `id` is gone unless `u` itself mentions it. */
  lemma SubstEliminates(t: Type, id: string, u: Type)
    requires id !in FreeVars(u)
    ensures id !in FreeVars(Subst(t, map[id := u]))
  {
    SubstFreeVars(t, id, u);
  }

  /** Substitution only touches the variables it maps: a type none of whose variables is mapped is unchanged. */
  lemma {:induction false} SubstOutsideDomain(t: Type, s: map<string, Type>)
    requires FreeVars(t) !! s.Keys
    ensures Subst(t, s) == t
  {
    match t
    case Var(x) =>
    case Name(n, args) =>
      forall i | 0 <= i < |args| ensures Subst(args[i], s) == args[i] {
        assert FreeVars(args[i]) <= FreeVars(t);
        SubstOutsideDomain(args[i], s);
      }
      assert Subst(t, s).args == args;
    case Union(ts) =>
      forall i | 0 <= i < |ts| ensures Subst(ts[i], s) == ts[i] {
        assert FreeVars(ts[i]) <= FreeVars(t);
        SubstOutsideDomain(ts[i], s);
      }
      assert Subst(t, s).types == ts;
    case Proc(fn, st) =>
      forall i | 0 <= i < |fn.params| ensures Subst(fn.params[i], s) == fn.params[i] {
        assert FreeVars(fn.params[i]) <= FreeVars(t);
        SubstOutsideDomain(fn.params[i], s);
      }
      assert Subst(t, s).fn.params == fn.params;
      SubstOutsideDomain(fn.ret, s);
      if st.Some? {
        SubstOutsideDomain(st.value, s);
      }
    case _ =>
  }
}

=== FILE: typing.dfy ===
/**
 The typing store: the type recorded for each syntax node, kept in a tree of
 layers. The root layer lives for the whole checking session; a child layer is
 a speculative branch that is either committed into its parent with `save!`
 or simply dropped. Layers live in an arena and point at their parent by index.
 */
module TypingStore {
  import opened Wrappers
  import opened Types

  /** A syntax node, by identity. */
  type Node = nat

  /**
   One layer. `version` counts the writes the layer has received (its own
   `add_typing`s and every child committed into it); `parentVersion` is the
   parent's version when this layer was created.
   */
  datatype Layer = Layer(parent: Option<nat>, entries: map<Node, Type>, version: nat, parentVersion: nat, retired: bool)

  datatype Store = Store(layers: seq<Layer>)

  datatype StoreError =
    | Conflict         // the node already has a type in this layer
    | NotFound         // no layer on the chain has the node
    | Retired          // the layer was already saved
    | NotAChild        // the root has nothing to save into
    | ParentModified   // the parent was written after the layer was created
    | NoSuchLayer      // a trace names a layer that does not exist

  /** Layer 0 is the root; every other layer has a parent created before it, whose version it has not overtaken. */
  predicate Valid(s: Store)
  {
    && |s.layers| > 0
    && s.layers[0].parent.None?
    && forall i :: 0 < i < |s.layers| ==> ParentOk(s, i)
  }

  predicate ParentOk(s: Store, i: nat)
    requires i < |s.layers|
  {
    match s.layers[i].parent
    case None => false
    case Some(p) => p < i && s.layers[i].parentVersion <= s.layers[p].version
  }

  /** `Typing.new`: a session with an empty root layer. */
  function Root(): (r: Store)
    ensures Valid(r) && |r.layers| == 1
    ensures forall n :: TypeOf(r, 0, n) == Err(NotFound)
  {
    Store([Layer(None, map[], 0, 0, false)])
  }

  /** `type_of`: the type in the nearest layer on the chain from `l` up to the root that has the node. */
  function TypeOf(s: Store, l: nat, n: Node): (r: Result<Type, StoreError>)
    requires Valid(s) && l < |s.layers|
    ensures r.Err? ==> r.error == NotFound
    decreases l
  {
    var layer := s.layers[l];
    if n in layer.entries then Ok(layer.entries[n])
    else match layer.parent
      case None => Err(NotFound)
      case Some(p) => assert ParentOk(s, l); TypeOf(s, p, n)
  }

  /** Everything readable from layer `l`: its ancestors' entries, each layer overriding those above it. */
  function Visible(s: Store, l: nat): map<Node, Type>
    requires Valid(s) && l < |s.layers|
    decreases l
  {
    match s.layers[l].parent
    case None => s.layers[l].entries
    case Some(p) => assert ParentOk(s, l); Visible(s, p) + s.layers[l].entries
  }

  /** The layers on the chain from `l` up to the root. */
  function Chain(s: Store, l: nat): (r: set<nat>)
    requires Valid(s) && l < |s.layers|
    ensures l in r && forall a :: a in r ==> a <= l
    decreases l
  {
    match s.layers[l].parent
    case None => {l}
    case Some(p) => assert ParentOk(s, l); {l} + Chain(s, p)
  }

  /** `type_of` reads exactly the merged view of the chain. */
  lemma {:induction false} TypeOfIsVisible(s: Store, l: nat, n: Node)
    requires Valid(s) && l < |s.layers|
    ensures TypeOf(s, l, n) == if n in Visible(s, l) then Ok(Visible(s, l)[n]) else Err(NotFound)
    decreases l
  {
    match s.layers[l].parent
    case None =>
    case Some(p) =>
      assert ParentOk(s, l);
      TypeOfIsVisible(s, p, n);
  }

  /** `type_of` fails exactly when no layer on the chain has the node. */
  lemma {:induction false} NotFoundMeansNowhere(s: Store, l: nat, n: Node)
    requires Valid(s) && l < |s.layers|
    ensures TypeOf(s, l, n).Err? <==> forall a :: a in Chain(s, l) ==> n !in s.layers[a].entries
    decreases l
  {
    match s.layers[l].parent
    case None =>
    case Some(p) =>
      assert ParentOk(s, l);
      NotFoundMeansNowhere(s, p, n);
  }

  /** What layer `l` reads depends only on the layers up to `l`. */
  lemma {:induction false} ReadsOnlyBelow(s1: Store, s2: Store, l: nat)
    requires Valid(s1) && Valid(s2) && l < |s1.layers| && l < |s2.layers|
    requires forall i :: 0 <= i <= l ==> s1.layers[i] == s2.layers[i]
    ensures Visible(s1, l) == Visible(s2, l)
    decreases l
  {
    match s1.layers[l].parent
    case None =>
    case Some(p) =>
      assert ParentOk(s1, l);
      ReadsOnlyBelow(s1, s2, p);
  }

  /**
   `add_typing`: records the node's type in layer `l`. A second write of the same node
   in the same layer, or any write to a saved layer, fails.
   */
  function AddTyping(s: Store, l: nat, n: Node, t: Type): (r: Result<Store, StoreError>)
    requires Valid(s) && l < |s.layers|
    ensures r.Err? <==> s.layers[l].retired || n in s.layers[l].entries
    ensures r.Err? ==> r.error == (if s.layers[l].retired then Retired else Conflict)
    ensures r.Ok? ==> Valid(r.value) && |r.value.layers| == |s.layers|
    ensures r.Ok? ==> r.value.layers[l].entries == s.layers[l].entries[n := t]
    ensures r.Ok? ==> r.value.layers[l].version == s.layers[l].version + 1
    ensures r.Ok? ==> forall i :: 0 <= i < |s.layers| && i != l ==> r.value.layers[i] == s.layers[i]
  {
    var layer := s.layers[l];
    if layer.retired then Err(Retired)
    else if n in layer.entries then Err(Conflict)
    else
      var s' := Store(s.layers[l := layer.(entries := layer.entries[n := t], version := layer.version + 1)]);
      assert forall i :: 0 < i < |s'.layers| ==> ParentOk(s, i) ==> ParentOk(s', i);
      Ok(s')
  }

  /** A node just written reads back from that layer. */
  lemma AddThenRead(s: Store, l: nat, n: Node, t: Type)
    requires Valid(s) && l < |s.layers| && AddTyping(s, l, n, t).Ok?
    ensures TypeOf(AddTyping(s, l, n, t).value, l, n) == Ok(t)
  {
  }

  /** Writes to a layer are invisible from every layer created before it, its parent included. */
  lemma WriteInvisibleBelow(s: Store, c: nat, n: Node, t: Type, l: nat)
    requires Valid(s) && c < |s.layers| && AddTyping(s, c, n, t).Ok? && l < c
    ensures Visible(AddTyping(s, c, n, t).value, l) == Visible(s, l)
  {
    ReadsOnlyBelow(AddTyping(s, c, n, t).value, s, l);
  }

  /** A fresh layer and its index. */
  datatype Forked = Forked(store: Store, child: nat)

  /** `new_child`: a fresh empty layer under `l`, recording `l`'s current version. */
  function NewChild(s: Store, l: nat): (r: Forked)
    requires Valid(s) && l < |s.layers|
    ensures Valid(r.store) && r.child == |s.layers| && |r.store.layers| == |s.layers| + 1
    ensures forall i :: 0 <= i < |s.layers| ==> r.store.layers[i] == s.layers[i]
    ensures r.store.layers[r.child] == Layer(Some(l), map[], 0, s.layers[l].version, false)
  {
    var s' := Store(s.layers + [Layer(Some(l), map[], 0, s.layers[l].version, false)]);
    assert forall i :: 0 < i < |s.layers| ==> ParentOk(s, i) ==> ParentOk(s', i);
    assert ParentOk(s', |s.layers|);
    Forked(s', |s.layers|)
  }

  /** A child reads everything its parent reads, and creating it changes no existing layer's view. */
  lemma ChildSeesParent(s: Store, l: nat)
    requires Valid(s) && l < |s.layers|
    ensures Visible(NewChild(s, l).store, NewChild(s, l).child) == Visible(s, l)
    ensures forall i :: 0 <= i < |s.layers| ==> Visible(NewChild(s, l).store, i) == Visible(s, i)
  {
    var f := NewChild(s, l);
    ReadsOnlyBelow(f.store, s, l);
    assert Visible(f.store, f.child) == Visible(f.store, l) + map[];
    assert Visible(f.store, l) + map[] == Visible(f.store, l);
    forall i | 0 <= i < |s.layers| ensures Visible(f.store, i) == Visible(s, i) {
      ReadsOnlyBelow(f.store, s, i);
    }
  }

  /**
   `save!`: adds the child's entries to its parent and retires the child. It fails
   when the parent has been written since the child was created, when either layer
   was already saved, and when the child re-types a node the parent itself holds:
   a layer's entries are written once and never overwritten. Even a child with no
   entries bumps the parent's version, so it makes every sibling stale.
   */
  function Save(s: Store, c: nat): (r: Result<Store, StoreError>)
    requires Valid(s) && c < |s.layers|
    ensures r.Err? <==> s.layers[c].parent.None? || s.layers[c].retired || Stale(s, c) || ParentRetired(s, c) || Overlaps(s, c)
    ensures r.Err? ==> r.error == SaveError(s, c)
    ensures r.Ok? ==> Valid(r.value) && |r.value.layers| == |s.layers|
    ensures r.Ok? ==> s.layers[c].parent.Some? && s.layers[c].parent.value < c
    ensures r.Ok? ==> var p := s.layers[c].parent.value;
      && r.value.layers[p] == s.layers[p].(entries := s.layers[p].entries + s.layers[c].entries, version := s.layers[p].version + 1)
      && r.value.layers[c] == s.layers[c].(retired := true)
      && forall i :: 0 <= i < |s.layers| && i != p && i != c ==> r.value.layers[i] == s.layers[i]
  {
    var child := s.layers[c];
    match child.parent
    case None => Err(NotAChild)
    case Some(p) =>
      assert ParentOk(s, c);
      var parent := s.layers[p];
      if child.retired then Err(Retired)
      else if parent.version != child.parentVersion then Err(ParentModified)
      else if parent.retired then Err(Retired)
      else if exists n :: n in child.entries && n in parent.entries then Err(Conflict)
      else
        var s' := Store(s.layers[p := parent.(entries := parent.entries + child.entries, version := parent.version + 1)]
                                [c := child.(retired := true)]);
        assert forall i :: 0 < i < |s'.layers| ==> ParentOk(s, i) ==> ParentOk(s', i);
        Ok(s')
  }

  /** The parent of child `c` has received a write since `c` was created. */
  predicate Stale(s: Store, c: nat)
    requires Valid(s) && c < |s.layers|
  {
    match s.layers[c].parent
    case None => false
    case Some(p) => assert ParentOk(s, c); s.layers[p].version != s.layers[c].parentVersion
  }

  /** Why `save!` of `c` fails, checked in this order: the root, a saved child, a stale child, a saved parent, a re-typed node. */
  function SaveError(s: Store, c: nat): StoreError
    requires Valid(s) && c < |s.layers|
  {
    if s.layers[c].parent.None? then NotAChild
    else if s.layers[c].retired then Retired
    else if Stale(s, c) then ParentModified
    else if ParentRetired(s, c) then Retired
    else Conflict
  }

  /** Child `c` recorded a node its parent layer already holds. */
  predicate Overlaps(s: Store, c: nat)
    requires Valid(s) && c < |s.layers|
  {
    match s.layers[c].parent
    case None => false
    case Some(p) => assert ParentOk(s, c); exists n :: n in s.layers[c].entries && n in s.layers[p].entries
  }

  /** The parent of child `c` was itself already saved, so nothing more may be committed into it. */
  predicate ParentRetired(s: Store, c: nat)
    requires Valid(s) && c < |s.layers|
  {
    match s.layers[c].parent
    case None => false
    case Some(p) => assert ParentOk(s, c); s.layers[p].retired
  }

  /**
   After `save!` the parent reads the child's entries over what it read before, the
   parent's own entries are all still there with their types, and the child is retired.
   */
  lemma SaveCommits(s: Store, c: nat)
    requires Valid(s) && c < |s.layers| && Save(s, c).Ok?
    ensures var p := s.layers[c].parent.value;
      && Visible(Save(s, c).value, p) == Visible(s, p) + s.layers[c].entries
      && s.layers[c].entries.Keys !! s.layers[p].entries.Keys
      && (forall n :: n in s.layers[p].entries ==>
            n in Save(s, c).value.layers[p].entries && Save(s, c).value.layers[p].entries[n] == s.layers[p].entries[n])
      && Save(s, c).value.layers[c].retired
      && forall i :: 0 <= i < |s.layers| && i != p && i != c ==> Save(s, c).value.layers[i] == s.layers[i]
  {
    var s', p := Save(s, c).value, s.layers[c].parent.value;
    assert ParentOk(s, c);
    var pl, pl' := s.layers[p], s'.layers[p];
    assert pl'.entries == pl.entries + s.layers[c].entries;
    match pl.parent
    case None =>
    case Some(q) =>
      assert ParentOk(s, p);
      ReadsOnlyBelow(s', s, q);
      assert Visible(s', p) == Visible(s, q) + (pl.entries + s.layers[c].entries);
      assert Visible(s, p) == Visible(s, q) + pl.entries;
      var a, b, d := Visible(s, q), pl.entries, s.layers[c].entries;
      assert a + (b + d) == (a + b) + d;
  }

  /**
   Every node the child recorded reads back from the parent after `save!`; every other
   node reads as before; and a node the parent itself recorded keeps the parent's type.
   */
  lemma SavedEntriesReadable(s: Store, c: nat, n: Node)
    requires Valid(s) && c < |s.layers| && Save(s, c).Ok?
    ensures var p := s.layers[c].parent.value;
      TypeOf(Save(s, c).value, p, n) == if n in s.layers[c].entries then Ok(s.layers[c].entries[n]) else TypeOf(s, p, n)
    ensures var p := s.layers[c].parent.value;
      n in s.layers[p].entries ==> TypeOf(Save(s, c).value, p, n) == Ok(s.layers[p].entries[n])
  {
    var p := s.layers[c].parent.value;
    assert ParentOk(s, c);
    SaveCommits(s, c);
    TypeOfIsVisible(Save(s, c).value, p, n);
    TypeOfIsVisible(s, p, n);
  }

  /** Any write to the parent, even of a node the child never touched, makes the child's `save!` fail. */
  lemma ParentWriteInvalidatesChild(s: Store, c: nat, p: nat, n: Node, t: Type)
    requires Valid(s) && c < |s.layers| && s.layers[c].parent == Some(p) && p < c
    requires AddTyping(s, p, n, t).Ok?
    ensures Save(AddTyping(s, p, n, t).value, c) == (if s.layers[c].retired then Err(Retired) else Err(ParentModified))
  {
    assert ParentOk(s, c);
  }

  /** Once one child of a layer is saved, every sibling's `save!` fails, whatever nodes they wrote. */
  lemma SaveInvalidatesSiblings(s: Store, c1: nat, c2: nat)
    requires Valid(s) && c1 < |s.layers| && c2 < |s.layers| && c1 != c2
    requires s.layers[c1].parent.Some? && s.layers[c2].parent == s.layers[c1].parent
    requires Save(s, c1).Ok?
    ensures Save(Save(s, c1).value, c2).Err?
  {
    assert ParentOk(s, c1);
    assert ParentOk(s, c2);
  }

  // ---- Traces of operations: a stale child stays stale ----

  datatype Op = Add(layer: nat, node: Node, ty: Type) | Fork(layer: nat) | Commit(layer: nat)

  function Step(s: Store, op: Op): (r: Result<Store, StoreError>)
    requires Valid(s)
    ensures r.Ok? ==> Valid(r.value) && Grows(s, r.value)
  {
    match op
    case Add(l, n, t) => if l < |s.layers| then AddTyping(s, l, n, t) else Err(NoSuchLayer)
    case Fork(l) => if l < |s.layers| then Ok(NewChild(s, l).store) else Err(NoSuchLayer)
    case Commit(c) => if c < |s.layers| then Save(s, c) else Err(NoSuchLayer)
  }

  /** Runs the operations in order, stopping at the first failure. */
  function Run(s: Store, ops: seq<Op>): (r: Result<Store, StoreError>)
    requires Valid(s)
    ensures r.Ok? ==> Valid(r.value) && Grows(s, r.value)
    decreases |ops|
  {
    if ops == [] then Ok(s)
    else match Step(s, ops[0])
      case Err(e) => Err(e)
      case Ok(s') => Run(s', ops[1..])
  }

  /** No layer disappears, no parent link or creation version changes, and versions never decrease. */
  predicate Grows(s: Store, s': Store)
  {
    && |s.layers| <= |s'.layers|
    && forall i :: 0 <= i < |s.layers| ==>
         && s'.layers[i].parent == s.layers[i].parent
         && s'.layers[i].parentVersion == s.layers[i].parentVersion
         && s.layers[i].version <= s'.layers[i].version
  }

  /** A child whose parent was written since its creation can never be saved, whatever happens next. */
  lemma StaleNeverCommits(s: Store, c: nat, ops: seq<Op>)
    requires Valid(s) && c < |s.layers| && Stale(s, c) && Run(s, ops).Ok?
    ensures Save(Run(s, ops).value, c) == Err(ParentModified) || Run(s, ops).value.layers[c].retired
  {
    var s' := Run(s, ops).value;
    assert ParentOk(s, c);
    assert ParentOk(s', c);
  }

  // ---- The scenarios of the store's tests: node 0 is `123 + 456`, nodes 1 and 2 its operands ----

  /** A node recorded in the root reads back. */
  lemma RecordAndRead()
    ensures AddTyping(Root(), 0, 0, Str).Ok?
    ensures TypeOf(AddTyping(Root(), 0, 0, Str).value, 0, 0) == Ok(Str)
  {
  }

  /** The store after the root records node 0 and a child under it records nodes 1 and 2. */
  function Branch(): (r: Store)
    ensures Valid(r) && |r.layers| == 2 && r.layers[1].parent == Some(0)
    ensures r.layers[0] == Layer(None, map[0 := Str], 1, 0, false)
    ensures r.layers[1] == Layer(Some(0), map[1 := Str, 2 := Str], 2, 1, false)
  {
    var s0 := AddTyping(Root(), 0, 0, Str).value;
    var s1 := NewChild(s0, 0).store;
    var s2 := AddTyping(s1, 1, 1, Str).value;
    assert s2.layers[1].entries == map[1 := Str];
    var s3 := AddTyping(s2, 1, 2, Str).value;
    assert s3.layers[1].entries == map[1 := Str][2 := Str];
    assert map[1 := Str][2 := Str] == map[1 := Str, 2 := Str];
    s3
  }

  /** While the child exists the root reads its node; after `save!` the root reads all three nodes. */
  lemma NewChildWithSave()
    ensures TypeOf(Branch(), 0, 0) == Ok(Str)
    ensures Save(Branch(), 1).Ok?
    ensures forall n :: n in {0, 1, 2} ==> TypeOf(Save(Branch(), 1).value, 0, n) == Ok(Str)
  {
    forall n | n in {0, 1, 2} ensures TypeOf(Save(Branch(), 1).value, 0, n) == Ok(Str) {
      SavedEntriesReadable(Branch(), 1, n);
    }
  }

  /** Without `save!` the root still reads its own node and fails on the child's. */
  lemma NewChildWithoutSave()
    ensures TypeOf(Branch(), 0, 0) == Ok(Str)
    ensures TypeOf(Branch(), 0, 1) == Err(NotFound)
    ensures TypeOf(Branch(), 0, 2) == Err(NotFound)
  {
  }

  /** A write to the root on a different node after the child was created makes the child's `save!` fail. */
  lemma NewChildCheck()
    ensures var s0 := AddTyping(Root(), 0, 0, Str).value;
      var s1 := AddTyping(NewChild(s0, 0).store, 1, 1, Str).value;
      AddTyping(s1, 0, 2, Str).Ok? && Save(AddTyping(s1, 0, 2, Str).value, 1) == Err(ParentModified)
  {
  }

  /** Of two siblings writing disjoint nodes, the second to `save!` fails. */
  lemma NewChildCheck2()
    ensures var f1 := NewChild(Root(), 0);
      var s1 := AddTyping(f1.store, 1, 1, Str).value;
      var s2 := AddTyping(NewChild(s1, 0).store, 2, 2, Str).value;
      Save(s2, 1).Ok? && Save(Save(s2, 1).value, 2) == Err(ParentModified)
  {
  }

  /** A grandchild cannot be committed into a layer that was itself saved already, so its nodes never reach the root that way. */
  lemma SaveIntoSavedParentFails()
    ensures var s1 := NewChild(Root(), 0).store;
      var s2 := NewChild(s1, 1).store;
      var s3 := AddTyping(s2, 2, 0, Str).value;
      var s4 := Save(s3, 1).value;
      Save(s3, 1).Ok? && Save(s4, 2) == Err(Retired) && AddTyping(s4, 1, 1, Str) == Err(Retired)
  {
  }

  /** Saving a child with no entries still makes its sibling stale. */
  lemma EmptySaveStalesSibling()
    ensures var s1 := NewChild(Root(), 0).store;
      var s2 := NewChild(s1, 0).store;
      Save(s2, 1).Ok? && Save(s2, 1).value.layers[0].entries == map[] && Save(Save(s2, 1).value, 2) == Err(ParentModified)
  {
  }

  /** A child that re-types a node its parent holds cannot be saved, and the parent keeps its type. */
  lemma SaveRefusesRetyping()
    ensures var s0 := AddTyping(Root(), 0, 0, Str).value;
      var s1 := AddTyping(NewChild(s0, 0).store, 1, 0, Instance("::Integer")).value;
      Save(s1, 1) == Err(Conflict) && TypeOf(s1, 0, 0) == Ok(Str)
  {
    var s0 := AddTyping(Root(), 0, 0, Str).value;
    var s1 := AddTyping(NewChild(s0, 0).store, 1, 0, Instance("::Integer")).value;
    assert 0 in s1.layers[1].entries && 0 in s1.layers[0].entries;
  }
}

=== FILE: wrappers.dfy ===
/** Failure-carrying wrappers shared by every module of the model. */
module Wrappers {

  /** An optional value: `None` plays the role of Ruby's `nil`. */
  datatype Option<+T> = None | Some(value: T)

  /** The outcome of an operation that the source either completes or aborts by raising. */
  datatype Result<+T, +E> = Ok(value: T) | Err(error: E)
}
